=== FILE: README.md ===
# Pokédex favourites and catalog cache — a Dafny model

This project models the three pieces of sequential logic behind the Pokédex app's UI:

- **The catalog client** (`services/poke-api.ts`). It wraps PokeAPI with an in-memory memo cache: a
  map from a string key to `(data, timestamp)`, where an entry counts as a hit only while it is
  younger than 300 000 ms. Each of the six service methods builds its own key. It answers a hit from
  the cache; on a miss it fetches, stores the result and returns it. A failed fetch is never
  stored. `clearCache` empties the map.
- **The favourites store** (`services/db.ts`). This is an SQLite table of favourites keyed by
  catalog id. The service holds it through a handle that exists only after `initDatabase`. Writes
  (`addFavourite`, an upsert, and `removeFavourite`) rethrow engine failures. Reads
  (`isFavourite`, `getAllFavourites`) swallow them and answer `false` or `[]`. Every call without
  a handle throws "Database not initialized".
- **The favourites hooks** (`hooks/use-favourites.ts`):
  - the optimistic toggle, as pure transitions over the UI query cache (`onMutate`, the durable
    write, then `onSuccess` or `onError`);
  - the join of favourites with fetched catalog entities;
  - search, the recent slice, the count and the bulk status map;
  - clear-all.

Time is a parameter, and so is every outside answer:
- the network is a function from URL to response;
- the SQLite engine is a fault per statement (`Some(message)` when it throws);
- `Date.now()`, `new Date()` and `CURRENT_TIMESTAMP` are integers passed in. The toggle takes two of them: the client's clock for the optimistic record and the engine's for the stored row.

Each service call takes two clocks, because `setCachedData` reads the clock again after the fetch
completes. Cached payloads form a sum type. The invariant `ApiCache.WellTyped` (the key prefix
decides the payload kind) is preserved by every method, so a typed read never meets the wrong
kind.

Files:
- `wrappers.dfy`: Option and Result.
- `text.dfy`: decimal rendering, ASCII lower-casing and substring search.
- `sequences.dfy`: filter and a descending insertion sort.
- `catalog.dfy`: the catalog entities.
- `api_cache.dfy`: the catalog client.
- `favourites_store.dfy`: the store.
- `favourites_sync.dfy`: the hooks.

## Model

| member | source | states |
|---|---|---|
| ApiCache.Lookup | services/poke-api.ts:13-19 | An entry is returned iff the key is present and `now - timestamp < 300000`, so at exactly 300 000 ms it is a miss. The value returned is the stored data. |
| ApiCache.Store | services/poke-api.ts:21-23 | The key ends up holding the new data stamped with the store time, replacing any earlier entry. Every other key keeps its entry, and no key is lost. |
| ApiCache.ClearCache | services/poke-api.ts:124 | After clearing, every key misses at every time. |
| ApiCache.FetchApi | services/poke-api.ts:25-38 | A value comes back iff the response is 2xx with a decodable body. A non-2xx status fails with the message `HTTP {status}: {statusText}`. A transport error propagates as it is. |
| ApiCache.Serve | services/poke-api.ts:45-52 | The shared hit/miss/store shape. A hit returns the cached value with no request and an unchanged cache. A miss issues one request for the call's URL and returns its outcome. A failure leaves the cache unchanged. A success overwrites only this key. |
| ApiCache.ListPokemons | services/poke-api.ts:41-53 | Memoised under `list-{offset}-{limit}`, fetching `/pokemon?offset=…&limit=…`. It keeps the typed-cache invariant. A request is issued iff the key misses. |
| ApiCache.GetPokemonById | services/poke-api.ts:55-64 | Memoised under `pokemon-{id}`, fetching `/pokemon/{id}`. It keeps the invariant. A request is issued iff the key misses. |
| ApiCache.GetPokemonByName | services/poke-api.ts:66-75 | Memoised under `pokemon-name-{name}` with the name as given. It fetches the lower-cased name. A request is issued iff the key misses. |
| ApiCache.GetPokemonSpeciesById | services/poke-api.ts:77-86 | Memoised under `species-{id}`, fetching `/pokemon-species/{id}`. It keeps the invariant. |
| ApiCache.GetEvolutionChainById | services/poke-api.ts:88-97 | Memoised under `evolution-{id}`, fetching `/evolution-chain/{id}`. It keeps the invariant. |
| ApiCache.GetPaginatedPokemon | services/poke-api.ts:98-122 | Memoised under `pokemon-page-{page}-{limit}`, requesting offset `(page-1)*limit`. On the hit and miss paths alike, the result carries `page` and `hasNextPage == (next != null)`. |
| ApiCache.GetPaginatedPokemonDefault | services/poke-api.ts:98-122 | With no limit given, the page size is 50. The call is memoised under `pokemon-page-{page}-50`, requests offset `(page-1)*50` only on a miss, and on both paths carries `page` and `hasNextPage == (next != null)`. |
| ApiCache.KeyInjective | services/poke-api.ts:45-103 | Different requests never share a cache key. This covers the six key schemes, with decimal ids and any name. |
| ApiCache.ListAndPageKeysDiffer | services/poke-api.ts:45-103 | A listing window and a page never share an entry, even for the same window. |
| ApiCache.IdAndNameKeysDiffer | services/poke-api.ts:56-67 | An id lookup and a name lookup never share an entry. |
| ApiCache.NameCaseNotShared | services/poke-api.ts:66-75 | Two spellings of a name that differ only in case fetch the same URL. They still occupy distinct entries, so the second spelling requests again. |
| ApiCache.FreshIffYoungerThanTtl | services/poke-api.ts:13-23 | A stored entry is served at `storedAt + 299999` and missed at `storedAt + 300000`. Storing does not disturb other keys' lookups. |
| ApiCache.OneRequestWithinTtl | services/poke-api.ts:55-64 | Two lookups of one id within five minutes issue one request. The second returns the first's entity. |
| ApiCache.RefetchAfterTtl | services/poke-api.ts:13-64 | Once an entry is 300 000 ms old, the call requests again. It then overwrites the entry with the new value and time. |
| ApiCache.ClearedCacheAlwaysMisses | services/poke-api.ts:124 | After `clearCache`, each of the six methods issues its request. |
| ApiCache.ListDoesNotServePage | services/poke-api.ts:45-113 | A window fetched through `listPokemons` still makes `getPaginatedPokemon` request the same URL. |
| Text.IntToStringInjective | services/poke-api.ts:45-56 | Decimal renderings of distinct integers differ, which is what keeps numeric cache keys apart. |
| Text.Contains | hooks/use-favourites.ts:249-250 | `includes`: true iff the needle occurs at some position of the haystack. |
| FavouritesStore.CreateTables | services/db.ts:24-35 | Without a handle it throws "Database not initialized". With a handle it fails iff the engine fails, with the engine's message, and a failure changes nothing. `IF NOT EXISTS` keeps an existing table and its rows as they are. A missing table is created empty. |
| FavouritesStore.InitDatabase | services/db.ts:14-22 | A failed open changes nothing and propagates its message. Otherwise the handle is open, and a failed table creation propagates its message. It succeeds iff both steps succeed. Existing rows survive, and a missing table is created empty. |
| FavouritesStore.AddFavourite | services/db.ts:37-53 | Without a handle it throws "Database not initialized". It succeeds iff the engine does. Afterwards the id holds exactly the new name, `imageUrl or ""`, and a fresh `created_at`; every other row is untouched. An engine failure is rethrown as that same error, with the store unchanged. |
| FavouritesStore.RemoveFavourite | services/db.ts:84-93 | Without a handle it throws. The id's row goes and every other row stays, so removing an absent id changes nothing. An engine failure is rethrown as that same error, with the store unchanged. |
| FavouritesStore.IsFavourite | services/db.ts:69-82 | It throws iff there is no handle, and then only "Database not initialized". An engine failure or a missing table is swallowed and answers `false`. Otherwise it answers whether a row has the id. |
| FavouritesStore.SelectAllByCreatedDesc | services/db.ts:59-61 | `ORDER BY created_at DESC`: every stored row exactly once, as stored, ordered by `created_at` non-increasing. |
| FavouritesStore.GetAllFavourites | services/db.ts:55-67 | It throws iff there is no handle. An engine failure or a missing table reads as `[]`. Otherwise it lists the table exactly. |
| FavouritesStore.AddRemoveMembership | services/db.ts:37-93 | After an add the id is a favourite. After a remove it is not, and a second remove changes nothing. |
| FavouritesStore.UpsertReplaces | services/db.ts:45-48 | Adding an id twice leaves one row, with the second call's name, image and time. |
| FavouritesStore.ListedOnce | services/db.ts:59-61 | A listed table shows each stored id exactly once. |
| FavouritesSync.MutationFn | hooks/use-favourites.ts:36-41 | It removes when the id is currently a favourite and adds otherwise, and answers `!isCurrentlyFavourite`. On success the table is the old one without the id, or with exactly the new row for it. A failed write rethrows the store's error and leaves the store unchanged. |
| FavouritesSync.ProjectList | hooks/use-favourites.ts:67-84 | When removing, every entry for the id is gone, every other entry is kept as many times as it occurs, and an absent list becomes `[]`. When adding, the new record `(id, name, imageUrl or "", now)` is put in front of the unchanged old list. |
| FavouritesSync.OnMutate | hooks/use-favourites.ts:43-87 | The context is both entries as they were before any write. The status becomes `!isCurrentlyFavourite` and the list becomes the projection. No other entry changes. |
| FavouritesSync.OnError | hooks/use-favourites.ts:88-101 | The status is restored only when the snapshot is `true`. The list is restored whenever a snapshot array existed, even an empty one. |
| FavouritesSync.OnSuccess | hooks/use-favourites.ts:102-109 | The list, every details entry (by key prefix) and this id's status are marked stale with their data kept. Other statuses and the bulk entries are unchanged. |
| FavouritesSync.ProjectedRemovalKeepsOrder | hooks/use-favourites.ts:67-72 | The optimistic removal keeps the list's order: projecting a concatenation projects each part in place. |
| FavouritesSync.ToggleFavourite | hooks/use-favourites.ts:21-111 | The whole mutation. The store ends as the write leaves it. A success flips stored membership and leaves the flipped status and the projected list on screen, both stale, and marks every details entry stale. A failure leaves the store unchanged and restores a snapshotted list; an absent list stays as projected. The status is restored only when it was `true` before, and the details entries are left exactly as they were. Either way, every other id's status entry and the bulk entries are untouched, stale flag included, and the details data are kept. |
| FavouritesSync.FalseStatusSurvivesFailedAdd | hooks/use-favourites.ts:89-94 | A failed add over a `false` status leaves `true` on screen while the store has no row. |
| FavouritesSync.RollBack | hooks/use-favourites.ts:88-101 | A rollback that restores both entries exactly as snapshotted, `false` and absent included. |
| FavouritesSync.RollBackUndoesOnMutate | hooks/use-favourites.ts:43-101 | `onMutate` followed by that rollback restores every status and the list. |
| FavouritesSync.ToggleWithRollBack | hooks/use-favourites.ts:21-111 | The toggle with the exact rollback. A success behaves as the original does. A failure leaves the store, every status, the list, the details and the bulk entries as they were before the toggle. |
| FavouritesSync.FetchEach | hooks/use-favourites.ts:121-127 | One outcome per id, in order, each judged against the cache the batch started from. An entity that was fresh in the cache is served as it is. An outcome is missing iff the id was not fresh in the cache and its fetch failed. Any other outcome is the entity the network returns for its URL. Every entity fetched is left in the cache under its id's key, stamped with the store time. Entities fetched earlier in the batch overwrite no fresh entry, and no key outside the batch's ids changes. The typed-cache invariant is kept. |
| FavouritesSync.Survivors | hooks/use-favourites.ts:128 | `filter(result !== null)`: only arrived entities, every arrived entity, and no more than there were ids. |
| FavouritesSync.SurvivorsCount | hooks/use-favourites.ts:128 | Each arrived entity appears as many times as it arrived. |
| FavouritesSync.SurvivorsAppend | hooks/use-favourites.ts:128 | Dropping failures distributes over concatenation, so arrival order is kept. |
| Sequences.FilterCount | hooks/use-favourites.ts:247-251 | `filter` keeps every copy of an accepted element and none of a rejected one. |
| FavouritesSync.FavouriteTime | hooks/use-favourites.ts:133-137 | The `created_at` of the first favourite with the id, or 0 when none has it. |
| FavouritesSync.FavouritesWithDetails | hooks/use-favourites.ts:113-142 | There is no data while the favourites are unknown or empty, and then the catalog cache is untouched. Otherwise it is the surviving entities, no more than the favourites, ordered by their favourite's `created_at` newest first. The cache is left as the batch leaves it: every fetched entity stored under its id's key, and no other key changed. |
| FavouritesSync.FailedFetchDropped | hooks/use-favourites.ts:121-128 | An id whose fetch fails never shows up, and every fetched entity does. |
| FavouritesSync.SearchFavourites | hooks/use-favourites.ts:239-255 | An entity is kept iff its lower-cased name contains the lower-cased term, or its decimal id contains the term. There is no data without details. |
| FavouritesSync.SearchKeepsOrder | hooks/use-favourites.ts:247-251 | Filtering distributes over concatenation, so relative order is kept. |
| FavouritesSync.EmptyTermKeepsAll | hooks/use-favourites.ts:247-251 | The empty term keeps every entity. |
| FavouritesSync.RecentFavourites | hooks/use-favourites.ts:257-269 | For a list of `n` favourites, the result has `min(limit, n)` of them when `limit >= 0`. For a negative limit, `slice(0, limit)` drops that many from the end, leaving `max(n + limit, 0)`. The result is drawn from the list and sorted newest first, and none left out is newer than one kept. |
| FavouritesSync.RecentFavouritesDefault | hooks/use-favourites.ts:257-266 | With the default limit there is a result iff there is a list. It holds the `min(n, 5)` newest favourites, drawn from the list and sorted newest first, and none left out is newer than one kept. |
| FavouritesSync.FavouriteCount | hooks/use-favourites.ts:230-237 | Loading exactly while there is no data. The count is the list's length, and it is 0 iff there is no data or the list is empty. |
| FavouritesSync.CountFollowsStore | hooks/use-favourites.ts:230-237 | The count of a full listing is the number of stored rows. An optimistic add shows one more. |
| FavouritesSync.StatusMap | hooks/use-favourites.ts:151-157 | The `reduce`: the keys are exactly the ids. Each id maps to the status at its last occurrence. |
| FavouritesSync.BulkFavouriteStatus | hooks/use-favourites.ts:144-161 | An empty id list disables the query, so there is no data. Otherwise it throws iff there is no handle, and then with "Database not initialized". Without a throw, the keys are exactly the ids, and each id maps to `isFavourite` of its last occurrence. |
| FavouritesSync.BulkMatchesStore | hooks/use-favourites.ts:144-161 | With a healthy engine, the query answers, and each asked id maps to whether the store holds it. |
| FavouritesSync.RemoveEach | hooks/use-favourites.ts:213-215 | The loop stops at the first failing removal and reports it. Every removal before `done` met no engine fault. With a table present, the failing one at `done` throws the engine's own message. After `done` successful removals, the table is the original without those ids. |
| FavouritesSync.RemovingListedEmpties | hooks/use-favourites.ts:212-215 | Removing every id of an exact listing empties the table. |
| FavouritesSync.OnCleared | hooks/use-favourites.ts:217-226 | A reader of the query cache sees every status, the list and every details entry with the same data as before, each now stale. The bulk entries are untouched. |
| FavouritesSync.ClearFavourites | hooks/use-favourites.ts:207-228 | Without a handle it throws with nothing changed. A failed read clears nothing and still succeeds. After a good read it succeeds iff every removal meets no fault. Then the table is empty and the views are invalidated. Otherwise the first failing removal's engine error is rethrown. The `k` rows before it are gone and the rest are unchanged, and the views are as before. |

## Left out

- Concurrency: `Promise.all` is a sequential, order-preserving map. The details fetches for a
  repeated id may therefore hit the entry the first one stored, where the concurrent original
  would fetch twice.
- Racing toggles on one id, react-query's `cancelQueries` and refetch scheduling are not modelled.
  Of the `enabled` guards, only those of the details and bulk queries are modelled.
- Network, JSON decoding and SQLite are oracles. The response body arrives already decoded or as
  a parse error, and a statement either runs or throws a message.
- Timestamps are integers. The ISO strings of the optimistic record and the SQLite
  `CURRENT_TIMESTAMP` text are not parsed, and `new Date(...)` of a malformed string (NaN) is not
  modelled.
- Text.IntToString: renders every integer in plain decimal. JS `toString` switches to exponent
  form from 1e21 in magnitude; ids never get there.
- `toLowerCase` is ASCII-only; there are no Unicode case mappings. Ids are integers, and
  non-integer JS numbers are not modelled.
- A falsy cached payload (`if (cached)` on `0`, `""` or `null`) cannot occur, because cached
  values are decoded objects. The `|| []` and `|| 0` fallbacks are modelled as "absent" only.
- FavouritesSync.FavouritesWithDetails: does not state how entities with equal times are ordered.
  The sort is stable, as JS `Array.prototype.sort` has been required to be since ECMAScript 2019. But
  the input order of tied favourites comes from SQLite, which promises no order among equal
  `created_at` values.
- FavouritesStore.SelectAllByCreatedDesc: does not state an order among rows with equal
  `created_at`, because SQLite promises none.
- `useFavourites`, `useFavouriteStatus`, `useAddMultipleFavourites` and
  `useRemoveMultipleFavourites` are thin query and mutation wrappers and are not modelled
  separately. `RemoveEach` is the loop `useRemoveMultipleFavourites` runs.
- Console logging is not modelled. JS `sort` mutates in place; here it is treated as pure.
- The UI files, `hooks/use-poke.ts` and `utils/queries.tsx` are rendering and library
  configuration and are not part of this model.

## Findings

| source | as written | input that shows it | evidently intended | confidence | as-written member | corrected member |
|---|---|---|---|---|---|---|
| hooks/use-favourites.ts:89-94 | `onError` restores the status only when the snapshot is truthy. | The status of id 7 is `false`. Adding 7 fails with "disk I/O error". The screen keeps showing `true`, but the store has no row. | Restore whatever status was snapshotted, `false` and absent included. | not executed | FavouritesSync.FalseStatusSurvivesFailedAdd | FavouritesSync.ToggleWithRollBack |

=== FILE: api_cache.dfy ===
/** The remote catalog client of services/poke-api.ts: six read-only service calls in
    front of one process-wide memo cache whose entries are trusted for five minutes.

    The network (`fetch` plus `response.json()`) is an oracle from URL to `Response`, and
    `Date.now()` is read twice per call: `now` when the cache is consulted, `storedAt`
    when a fetched value is stored after the request settles. */
module ApiCache {
  import opened Wrappers
  import opened Text
  import opened Catalog

  /** How long, in milliseconds, a stored value is served without a request. */
  const Ttl: int := 300000
  const BaseUrl: string := "https://pokeapi.co/api/v2"
  /** `limit` when `getPaginatedPokemon` is called with a page only. */
  const DefaultPageLimit: int := 50

  /** Whatever a service call stored; the source's cache holds untyped values. */
  datatype Payload =
    | ListData(list: PokemonList)
    | PokemonData(pokemon: Pokemon)
    | SpeciesData(species: Species)
    | ChainData(chain: EvolutionChain)

  datatype Entry = Entry(data: Payload, timestamp: int)

  type Cache = map<string, Entry>

  datatype FetchError = FetchError(message: string)

  /** What the network and JSON decoding yield for one request: a transport failure, or an
      HTTP response whose body decodes to a `T` or fails to parse. */
  datatype Response<T> =
    | Transport(message: string)
    | Http(status: int, statusText: string, body: Result<T, string>)

  /** One service call: what it returned or threw, the cache afterwards, and the URL it
      requested (`None` when served from the cache). */
  datatype Call<T> = Call(result: Result<T, FetchError>, cache: Cache, request: Option<string>)

  // ---------------------------------------------------------------- the memo cache

  /** `getCachedData`: the stored value while it is younger than `Ttl`, else nothing. */
  function Lookup(c: Cache, key: string, now: int): (r: Option<Payload>)
    ensures r.Some? <==> key in c && now - c[key].timestamp < Ttl
    ensures r.Some? ==> r.value == c[key].data
  {
    if key in c && now - c[key].timestamp < Ttl then Some(c[key].data) else None
  }

  /** `setCachedData`: `key` now holds `data` stamped `now`; every other key keeps its entry. */
  function Store(c: Cache, key: string, data: Payload, now: int): (r: Cache)
    ensures r.Keys == c.Keys + {key}
    ensures r[key] == Entry(data, now)
    ensures forall k :: k in c && k != key ==> r[k] == c[k]
  {
    c[key := Entry(data, now)]
  }

  /** `clearCache`. */
  function ClearCache(): (r: Cache)
    ensures forall key, now :: Lookup(r, key, now).None?
  {
    map[]
  }

  /** `Response.ok`: a 2xx status. */
  predicate IsOk(status: int) {
    200 <= status <= 299
  }

  /** `fetchAPI`: a transport failure, a non-2xx status and an undecodable body all fail;
      only a 2xx response with a decodable body yields a value. No retry. */
  function FetchApi<T>(response: Response<T>): (r: Result<T, FetchError>)
    ensures r.Ok? <==> response.Http? && IsOk(response.status) && response.body.Ok?
    ensures r.Ok? ==> r.value == response.body.value
    ensures response.Transport? ==> r == Err(FetchError(response.message))
    ensures response.Http? && !IsOk(response.status) ==>
              r == Err(FetchError("HTTP " + IntToString(response.status) + ": " + response.statusText))
  {
    match response
    case Transport(message) => Err(FetchError(message))
    case Http(status, statusText, body) =>
      if !IsOk(status) then
        Err(FetchError("HTTP " + IntToString(status) + ": " + statusText))
      else
        match body
        case Ok(v) => Ok(v)
        case Err(parseError) => Err(FetchError(parseError))
  }

  // ---------------------------------------------------------------- typed payloads

  function WrapList(l: PokemonList): Payload { ListData(l) }
  function WrapPokemon(p: Pokemon): Payload { PokemonData(p) }
  function WrapSpecies(s: Species): Payload { SpeciesData(s) }
  function WrapChain(e: EvolutionChain): Payload { ChainData(e) }

  function AsList(p: Payload): Option<PokemonList> { if p.ListData? then Some(p.list) else None }
  function AsPokemon(p: Payload): Option<Pokemon> { if p.PokemonData? then Some(p.pokemon) else None }
  function AsSpecies(p: Payload): Option<Species> { if p.SpeciesData? then Some(p.species) else None }
  function AsChain(p: Payload): Option<EvolutionChain> { if p.ChainData? then Some(p.chain) else None }

  /** A fresh entry read back at the type its service call expects. */
  function LookupAs<T>(c: Cache, key: string, now: int, unwrap: Payload -> Option<T>): Option<T> {
    match Lookup(c, key, now)
    case None => None
    case Some(p) => unwrap(p)
  }

  /** Which payload a key's prefix stands for. */
  datatype Kind = ListKind | PokemonKind | SpeciesKind | ChainKind

  function KindOf(key: string): Option<Kind> {
    if "list-" <= key || "pokemon-page-" <= key then Some(ListKind)
    else if "pokemon-" <= key then Some(PokemonKind)
    else if "species-" <= key then Some(SpeciesKind)
    else if "evolution-" <= key then Some(ChainKind)
    else None
  }

  predicate Fits(kind: Option<Kind>, p: Payload) {
    match kind
    case None => true
    case Some(ListKind) => p.ListData?
    case Some(PokemonKind) => p.PokemonData?
    case Some(SpeciesKind) => p.SpeciesData?
    case Some(ChainKind) => p.ChainData?
  }

  /** Every entry holds the payload its key's service call stores, so a typed read of a
      fresh entry never comes back empty. */
  ghost predicate WellTyped(c: Cache) {
    forall k :: k in c ==> Fits(KindOf(k), c[k].data)
  }

  // ---------------------------------------------------------------- keys and URLs

  /** The logical request behind each service call; the source builds its cache key from it. */
  datatype Request =
    | ListReq(offset: int, limit: int)
    | IdReq(id: int)
    | NameReq(name: string)
    | SpeciesReq(speciesId: int)
    | ChainReq(chainId: int)
    | PageReq(page: int, pageLimit: int)

  function KeyOf(q: Request): string {
    match q
    case ListReq(o, l) => "list-" + IntToString(o) + "-" + IntToString(l)
    case IdReq(id) => "pokemon-" + IntToString(id)
    case NameReq(name) => "pokemon-name-" + name
    case SpeciesReq(id) => "species-" + IntToString(id)
    case ChainReq(id) => "evolution-" + IntToString(id)
    case PageReq(p, l) => "pokemon-page-" + IntToString(p) + "-" + IntToString(l)
  }

  function ListUrl(offset: int, limit: int): string {
    BaseUrl + "/pokemon?offset=" + IntToString(offset) + "&limit=" + IntToString(limit)
  }

  /** The URL each request fetches; a page fetches the listing window it covers, and a
      name is lower-cased in the URL only. */
  function UrlOf(q: Request): string {
    match q
    case ListReq(o, l) => ListUrl(o, l)
    case IdReq(id) => BaseUrl + "/pokemon/" + IntToString(id)
    case NameReq(name) => BaseUrl + "/pokemon/" + Lower(name)
    case SpeciesReq(id) => BaseUrl + "/pokemon-species/" + IntToString(id)
    case ChainReq(id) => BaseUrl + "/evolution-chain/" + IntToString(id)
    case PageReq(p, l) => ListUrl((p - 1) * l, l)
  }

  lemma {:induction false} KindOfKey(q: Request)
    ensures KindOf(KeyOf(q)) == Some(match q
      case ListReq(_, _) => ListKind
      case PageReq(_, _) => ListKind
      case IdReq(_) => PokemonKind
      case NameReq(_) => PokemonKind
      case SpeciesReq(_) => SpeciesKind
      case ChainReq(_) => ChainKind)
  {
    var k := KeyOf(q);
    match q {
      case ListReq(o, l) =>
        assert k == "list-" + (IntToString(o) + "-" + IntToString(l));
      case PageReq(p, l) =>
        assert k == "pokemon-page-" + (IntToString(p) + "-" + IntToString(l));
      case IdReq(id) =>
        assert k[0] == 'p' && k[8] == IntToString(id)[0] && k[8] != 'p';
        assert k[..8] == "pokemon-";
      case NameReq(name) =>
        assert k[0] == 'p' && k[8] == 'n';
        assert k[..8] == "pokemon-";
      case SpeciesReq(id) =>
        assert k[0] == 's' && k[..8] == "species-";
      case ChainReq(id) =>
        assert k[0] == 'e' && k[..10] == "evolution-";
    }
  }

  /** Two keys of one family that agree after a common prefix come from equal arguments. */
  lemma WindowKeyInjective(prefix: string, x: int, y: int, x': int, y': int)
    ensures prefix + IntToString(x) + "-" + IntToString(y) == prefix + IntToString(x') + "-" + IntToString(y')
            ==> x == x' && y == y'
  {
    var k, k' := prefix + IntToString(x) + "-" + IntToString(y), prefix + IntToString(x') + "-" + IntToString(y');
    if k == k' {
      assert k[|prefix|..] == IntToString(x) + "-" + IntToString(y);
      assert k'[|prefix|..] == IntToString(x') + "-" + IntToString(y');
      SplitAtDash(x, y, x', y');
    }
  }

  lemma IdKeyInjective(prefix: string, x: int, x': int)
    ensures prefix + IntToString(x) == prefix + IntToString(x') ==> x == x'
  {
    var k, k' := prefix + IntToString(x), prefix + IntToString(x');
    if k == k' {
      assert k[|prefix|..] == IntToString(x) && k'[|prefix|..] == IntToString(x');
      IntToStringInjective(x, x');
    }
  }

  /** An id key never equals a name key: after "pokemon-" comes a digit or '-', not 'n'. */
  lemma IdAndNameKeysDiffer(id: int, name: string)
    ensures KeyOf(IdReq(id)) != KeyOf(NameReq(name))
  {
    assert KeyOf(IdReq(id))[8] == IntToString(id)[0];
    assert KeyOf(NameReq(name))[8] == 'n';
  }

  /** A listing key never equals a page key, even for the same window. */
  lemma ListAndPageKeysDiffer(o: int, l: int, p: int, l': int)
    ensures KeyOf(ListReq(o, l)) != KeyOf(PageReq(p, l'))
  {
    assert KeyOf(ListReq(o, l))[0] == 'l';
    assert KeyOf(PageReq(p, l'))[0] == 'p';
  }

  /** Distinct requests never share a cache entry: a listing window and the page covering
      the same window differ, an id and a name differ, and so on for every pair. */
  lemma {:induction false} KeyInjective(a: Request, b: Request)
    ensures KeyOf(a) == KeyOf(b) ==> a == b
  {
    if KeyOf(a) == KeyOf(b) {
      KindOfKey(a);
      KindOfKey(b);
      if a.ListReq? && b.PageReq? {
        ListAndPageKeysDiffer(a.offset, a.limit, b.page, b.pageLimit);
      } else if a.PageReq? && b.ListReq? {
        ListAndPageKeysDiffer(b.offset, b.limit, a.page, a.pageLimit);
      } else if a.IdReq? && b.NameReq? {
        IdAndNameKeysDiffer(a.id, b.name);
      } else if a.NameReq? && b.IdReq? {
        IdAndNameKeysDiffer(b.id, a.name);
      } else if a.ListReq? {
        WindowKeyInjective("list-", a.offset, a.limit, b.offset, b.limit);
      } else if a.PageReq? {
        WindowKeyInjective("pokemon-page-", a.page, a.pageLimit, b.page, b.pageLimit);
      } else if a.IdReq? {
        IdKeyInjective("pokemon-", a.id, b.id);
      } else if a.NameReq? {
        assert KeyOf(a)[13..] == a.name && KeyOf(b)[13..] == b.name;
      } else if a.SpeciesReq? {
        IdKeyInjective("species-", a.speciesId, b.speciesId);
      } else {
        IdKeyInjective("evolution-", a.chainId, b.chainId);
      }
    }
  }

  /** The name is lower-cased for the URL but kept as given in the key: names that differ
      only in case fetch the same URL into different entries. */
  lemma NameCaseSplitsEntries(a: string, b: string)
    requires Lower(a) == Lower(b) && a != b
    ensures UrlOf(NameReq(a)) == UrlOf(NameReq(b))
    ensures KeyOf(NameReq(a)) != KeyOf(NameReq(b))
  {
    KeyInjective(NameReq(a), NameReq(b));
  }

  // ---------------------------------------------------------------- service calls

  /** The contract every service method keeps for its own key and URL. */
  ghost predicate Memoised<T>(c: Cache, key: string, url: string, now: int, storedAt: int,
                              response: Response<T>, wrap: T -> Payload,
                              unwrap: Payload -> Option<T>, r: Call<T>)
  {
    // a hit answers from the cache: no request, no change
    && (LookupAs(c, key, now, unwrap).Some? ==>
          r.result == Ok(LookupAs(c, key, now, unwrap).value) && r.request.None? && r.cache == c)
    // a miss issues exactly one request, for this call's URL, and returns its outcome
    && (LookupAs(c, key, now, unwrap).None? ==>
          r.request == Some(url) && r.result == FetchApi(response))
    // failures are propagated and never cached
    && (r.result.Err? ==> r.cache == c)
    // a fetched value overwrites this key, stamped with the store time; no other key changes
    && (r.request.Some? && r.result.Ok? ==>
          && r.cache.Keys == c.Keys + {key}
          && r.cache[key] == Entry(wrap(r.result.value), storedAt)
          && forall k :: k in c && k != key ==> r.cache[k] == c[k])
  }

  /** The shape shared by the six methods: consult the cache, else fetch and store. */
  function Serve<T>(c: Cache, key: string, url: string, now: int, storedAt: int,
                    fetch: string -> Response<T>, wrap: T -> Payload,
                    unwrap: Payload -> Option<T>): (r: Call<T>)
    ensures Memoised(c, key, url, now, storedAt, fetch(url), wrap, unwrap, r)
  {
    match LookupAs(c, key, now, unwrap)
    case Some(v) => Call(Ok(v), c, None)
    case None =>
      match FetchApi(fetch(url))
      case Ok(v) => Call(Ok(v), Store(c, key, wrap(v), storedAt), Some(url))
      case Err(e) => Call(Err(e), c, Some(url))
  }

  /** `listPokemons(offset, limit)`. */
  function ListPokemons(c: Cache, offset: int, limit: int, fetch: string -> Response<PokemonList>,
                        now: int, storedAt: int): (r: Call<PokemonList>)
    ensures Memoised(c, KeyOf(ListReq(offset, limit)), UrlOf(ListReq(offset, limit)), now, storedAt,
                     fetch(UrlOf(ListReq(offset, limit))), WrapList, AsList, r)
    ensures WellTyped(c) ==> WellTyped(r.cache)
    ensures WellTyped(c) ==> (r.request.None? <==> Lookup(c, KeyOf(ListReq(offset, limit)), now).Some?)
  {
    KindOfKey(ListReq(offset, limit));
    Serve(c, KeyOf(ListReq(offset, limit)), UrlOf(ListReq(offset, limit)), now, storedAt, fetch, WrapList, AsList)
  }

  /** `getPokemonById(id)`. */
  function GetPokemonById(c: Cache, id: int, fetch: string -> Response<Pokemon>,
                          now: int, storedAt: int): (r: Call<Pokemon>)
    ensures Memoised(c, KeyOf(IdReq(id)), UrlOf(IdReq(id)), now, storedAt,
                     fetch(UrlOf(IdReq(id))), WrapPokemon, AsPokemon, r)
    ensures WellTyped(c) ==> WellTyped(r.cache)
    ensures WellTyped(c) ==> (r.request.None? <==> Lookup(c, KeyOf(IdReq(id)), now).Some?)
  {
    KindOfKey(IdReq(id));
    Serve(c, KeyOf(IdReq(id)), UrlOf(IdReq(id)), now, storedAt, fetch, WrapPokemon, AsPokemon)
  }

  /** `getPokemonByName(name)`. */
  function GetPokemonByName(c: Cache, name: string, fetch: string -> Response<Pokemon>,
                            now: int, storedAt: int): (r: Call<Pokemon>)
    ensures Memoised(c, KeyOf(NameReq(name)), UrlOf(NameReq(name)), now, storedAt,
                     fetch(UrlOf(NameReq(name))), WrapPokemon, AsPokemon, r)
    ensures WellTyped(c) ==> WellTyped(r.cache)
    ensures WellTyped(c) ==> (r.request.None? <==> Lookup(c, KeyOf(NameReq(name)), now).Some?)
  {
    KindOfKey(NameReq(name));
    Serve(c, KeyOf(NameReq(name)), UrlOf(NameReq(name)), now, storedAt, fetch, WrapPokemon, AsPokemon)
  }

  /** `getPokemonSpeciesById(id)`. */
  function GetPokemonSpeciesById(c: Cache, id: int, fetch: string -> Response<Species>,
                                 now: int, storedAt: int): (r: Call<Species>)
    ensures Memoised(c, KeyOf(SpeciesReq(id)), UrlOf(SpeciesReq(id)), now, storedAt,
                     fetch(UrlOf(SpeciesReq(id))), WrapSpecies, AsSpecies, r)
    ensures WellTyped(c) ==> WellTyped(r.cache)
    ensures WellTyped(c) ==> (r.request.None? <==> Lookup(c, KeyOf(SpeciesReq(id)), now).Some?)
  {
    KindOfKey(SpeciesReq(id));
    Serve(c, KeyOf(SpeciesReq(id)), UrlOf(SpeciesReq(id)), now, storedAt, fetch, WrapSpecies, AsSpecies)
  }

  /** `getEvolutionChainById(id)`. */
  function GetEvolutionChainById(c: Cache, id: int, fetch: string -> Response<EvolutionChain>,
                                 now: int, storedAt: int): (r: Call<EvolutionChain>)
    ensures Memoised(c, KeyOf(ChainReq(id)), UrlOf(ChainReq(id)), now, storedAt,
                     fetch(UrlOf(ChainReq(id))), WrapChain, AsChain, r)
    ensures WellTyped(c) ==> WellTyped(r.cache)
    ensures WellTyped(c) ==> (r.request.None? <==> Lookup(c, KeyOf(ChainReq(id)), now).Some?)
  {
    KindOfKey(ChainReq(id));
    Serve(c, KeyOf(ChainReq(id)), UrlOf(ChainReq(id)), now, storedAt, fetch, WrapChain, AsChain)
  }

  /** The listing behind a page call, with the page annotation dropped. */
  function Unannotated(r: Call<PaginatedPage>): Call<PokemonList> {
    Call(match r.result case Ok(p) => Ok(p.list) case Err(e) => Err(e), r.cache, r.request)
  }

  /** `getPaginatedPokemon(page, limit)`: the window at offset `(page - 1) * limit`, cached
      under its own page key and annotated, on the hit path as on the miss path, with the
      page asked for and whether the listing names a next page. */
  function GetPaginatedPokemon(c: Cache, page: int, limit: int, fetch: string -> Response<PokemonList>,
                               now: int, storedAt: int): (r: Call<PaginatedPage>)
    ensures Memoised(c, KeyOf(PageReq(page, limit)), ListUrl((page - 1) * limit, limit), now, storedAt,
                     fetch(ListUrl((page - 1) * limit, limit)), WrapList, AsList, Unannotated(r))
    ensures r.result.Ok? ==> r.result.value.page == page
    ensures r.result.Ok? ==> (r.result.value.hasNextPage <==> r.result.value.list.next.Some?)
    ensures WellTyped(c) ==> WellTyped(r.cache)
    ensures WellTyped(c) ==> (r.request.None? <==> Lookup(c, KeyOf(PageReq(page, limit)), now).Some?)
  {
    KindOfKey(PageReq(page, limit));
    var inner := Serve(c, KeyOf(PageReq(page, limit)), UrlOf(PageReq(page, limit)), now, storedAt,
                       fetch, WrapList, AsList);
    var r := Call(match inner.result
                  case Ok(l) => Ok(PaginatedPage(l, page, l.next.Some?))
                  case Err(e) => Err(e),
                  inner.cache, inner.request);
    assert Unannotated(r) == inner;
    r
  }

  /** `getPaginatedPokemon(page)` with the default limit of 50. */
  function GetPaginatedPokemonDefault(c: Cache, page: int, fetch: string -> Response<PokemonList>,
                                      now: int, storedAt: int): (r: Call<PaginatedPage>)
    ensures Memoised(c, KeyOf(PageReq(page, 50)), ListUrl((page - 1) * 50, 50), now, storedAt,
                     fetch(ListUrl((page - 1) * 50, 50)), WrapList, AsList, Unannotated(r))
    ensures r.result.Ok? ==> r.result.value.page == page
    ensures r.result.Ok? ==> (r.result.value.hasNextPage <==> r.result.value.list.next.Some?)
    ensures WellTyped(c) ==> WellTyped(r.cache)
    ensures WellTyped(c) ==> (r.request.None? <==> Lookup(c, KeyOf(PageReq(page, 50)), now).Some?)
  {
    GetPaginatedPokemon(c, page, DefaultPageLimit, fetch, now, storedAt)
  }

  // ---------------------------------------------------------------- properties across calls

  /** An entry is served while strictly younger than five minutes: at exactly `Ttl`
      milliseconds it is a miss; other keys read as before. */
  lemma FreshIffYoungerThanTtl(c: Cache, key: string, data: Payload, storedAt: int, now: int, other: string)
    requires other != key
    ensures Lookup(Store(c, key, data, storedAt), key, now) == (if now - storedAt < Ttl then Some(data) else None)
    ensures Lookup(Store(c, key, data, storedAt), key, storedAt + Ttl - 1) == Some(data)
    ensures Lookup(Store(c, key, data, storedAt), key, storedAt + Ttl).None?
    ensures Lookup(Store(c, key, data, storedAt), other, now) == Lookup(c, other, now)
  {
  }

  /** Two look-ups of one id within the window issue exactly one request: the first
      fetches and stores, the second answers from the cache with the same entity. */
  lemma OneRequestWithinTtl(c: Cache, id: int, fetch: string -> Response<Pokemon>,
                            now1: int, stored1: int, now2: int, stored2: int)
    requires LookupAs(c, KeyOf(IdReq(id)), now1, AsPokemon).None?
    requires FetchApi(fetch(UrlOf(IdReq(id)))).Ok?
    requires now2 - stored1 < Ttl
    ensures GetPokemonById(c, id, fetch, now1, stored1).request == Some(UrlOf(IdReq(id)))
    ensures GetPokemonById(GetPokemonById(c, id, fetch, now1, stored1).cache, id, fetch, now2, stored2).request.None?
    ensures GetPokemonById(GetPokemonById(c, id, fetch, now1, stored1).cache, id, fetch, now2, stored2).result
            == Ok(fetch(UrlOf(IdReq(id))).body.value)
  {
    var r1 := GetPokemonById(c, id, fetch, now1, stored1);
    assert r1.cache[KeyOf(IdReq(id))] == Entry(PokemonData(fetch(UrlOf(IdReq(id))).body.value), stored1);
  }

  /** Once the entry is `Ttl` old the same call requests again and overwrites the entry
      with the new value and the new store time. */
  lemma RefetchAfterTtl(c: Cache, id: int, fetch: string -> Response<Pokemon>,
                        now1: int, stored1: int, fetch2: string -> Response<Pokemon>, now2: int, stored2: int)
    requires GetPokemonById(c, id, fetch, now1, stored1).request.Some?
    requires GetPokemonById(c, id, fetch, now1, stored1).result.Ok?
    requires now2 - stored1 >= Ttl
    ensures GetPokemonById(GetPokemonById(c, id, fetch, now1, stored1).cache, id, fetch2, now2, stored2).request
            == Some(UrlOf(IdReq(id)))
    ensures FetchApi(fetch2(UrlOf(IdReq(id)))).Ok? ==>
            GetPokemonById(GetPokemonById(c, id, fetch, now1, stored1).cache, id, fetch2, now2, stored2).cache[KeyOf(IdReq(id))]
            == Entry(PokemonData(fetch2(UrlOf(IdReq(id))).body.value), stored2)
  {
  }

  /** After `clearCache` every service call requests, however recent its last fetch. */
  lemma ClearedCacheAlwaysMisses(q: Request, now: int, storedAt: int,
                                 lists: string -> Response<PokemonList>, pokemon: string -> Response<Pokemon>,
                                 species: string -> Response<Species>, chains: string -> Response<EvolutionChain>)
    ensures q.ListReq? ==> ListPokemons(ClearCache(), q.offset, q.limit, lists, now, storedAt).request == Some(UrlOf(q))
    ensures q.IdReq? ==> GetPokemonById(ClearCache(), q.id, pokemon, now, storedAt).request == Some(UrlOf(q))
    ensures q.NameReq? ==> GetPokemonByName(ClearCache(), q.name, pokemon, now, storedAt).request == Some(UrlOf(q))
    ensures q.SpeciesReq? ==>
              GetPokemonSpeciesById(ClearCache(), q.speciesId, species, now, storedAt).request == Some(UrlOf(q))
    ensures q.ChainReq? ==> GetEvolutionChainById(ClearCache(), q.chainId, chains, now, storedAt).request == Some(UrlOf(q))
    ensures q.PageReq? ==> GetPaginatedPokemon(ClearCache(), q.page, q.pageLimit, lists, now, storedAt).request == Some(UrlOf(q))
  {
  }

  /** A listing window fetched by `listPokemons` is not reused by `getPaginatedPokemon`
      for the same window: the page call still requests the very same URL. */
  lemma ListDoesNotServePage(c: Cache, page: int, limit: int, fetch: string -> Response<PokemonList>,
                             now1: int, stored1: int, now2: int, stored2: int)
    requires LookupAs(c, KeyOf(PageReq(page, limit)), now2, AsList).None?
    ensures GetPaginatedPokemon(ListPokemons(c, (page - 1) * limit, limit, fetch, now1, stored1).cache,
                                page, limit, fetch, now2, stored2).request
            == Some(UrlOf(ListReq((page - 1) * limit, limit)))
  {
    var listKey, pageKey := KeyOf(ListReq((page - 1) * limit, limit)), KeyOf(PageReq(page, limit));
    KeyInjective(ListReq((page - 1) * limit, limit), PageReq(page, limit));
    var c1 := ListPokemons(c, (page - 1) * limit, limit, fetch, now1, stored1).cache;
    assert Lookup(c1, pageKey, now2) == Lookup(c, pageKey, now2);
  }

  /** Looking a name up does not serve a differently-cased spelling of it, although both
      fetch the same URL. */
  lemma NameCaseNotShared(c: Cache, a: string, b: string, fetch: string -> Response<Pokemon>,
                          now1: int, stored1: int, now2: int, stored2: int)
    requires Lower(a) == Lower(b) && a != b
    requires LookupAs(c, KeyOf(NameReq(b)), now2, AsPokemon).None?
    ensures GetPokemonByName(GetPokemonByName(c, a, fetch, now1, stored1).cache, b, fetch, now2, stored2).request
            == Some(UrlOf(NameReq(a)))
  {
    NameCaseSplitsEntries(a, b);
    var c1 := GetPokemonByName(c, a, fetch, now1, stored1).cache;
    assert Lookup(c1, KeyOf(NameReq(b)), now2) == Lookup(c, KeyOf(NameReq(b)), now2);
  }
}

=== FILE: catalog.dfy ===
/** The remote catalog's entities, reduced to the fields the rest of the model reads
    (the JSON schemas are declared in constants/pokemon.ts). */
module Catalog {
  import opened Wrappers

  /** A `{name, url}` reference to another catalog resource. */
  datatype NamedResource = NamedResource(name: string, url: string)

  /** One window of the catalog listing: total count, next/previous page URLs, entries. */
  datatype PokemonList = PokemonList(
    count: int,
    next: Option<string>,
    previous: Option<string>,
    results: seq<NamedResource>)

  datatype Stat = Stat(baseStat: int, effort: int, stat: NamedResource)

  /** A catalog entity; `id` and `name` are what the favourites layer joins and searches on. */
  datatype Pokemon = Pokemon(
    id: int,
    name: string,
    baseExperience: int,
    height: int,
    weight: int,
    species: NamedResource,
    stats: seq<Stat>,
    types: seq<NamedResource>,
    frontSprite: Option<string>)

  datatype Species = Species(
    id: int,
    name: string,
    evolvesFromSpecies: Option<NamedResource>,
    evolutionChainUrl: string)

  datatype EvolutionDetail = EvolutionDetail(trigger: NamedResource, minLevel: Option<int>)

  datatype ChainLink = ChainLink(
    isBaby: bool,
    species: NamedResource,
    evolutionDetails: seq<EvolutionDetail>,
    evolvesTo: seq<ChainLink>)

  datatype EvolutionChain = EvolutionChain(id: int, babyTriggerItem: Option<NamedResource>, chain: ChainLink)

  /** A listing window annotated with the 1-based page that asked for it and whether
      another page follows (the source spreads the list's fields into the same object). */
  datatype PaginatedPage = PaginatedPage(list: PokemonList, page: int, hasNextPage: bool)
}

=== FILE: favourites_store.dfy ===
/** The local favourites store of services/db.ts: one SQLite table keyed by catalog id,
    reached through a handle that exists only after `initDatabase` succeeds.

    SQLite is an oracle: every statement the store runs is given a `fault` (`Some(message)`
    when the engine throws). `now` stands for `CURRENT_TIMESTAMP`, as an integer. */
module FavouritesStore {
  import opened Wrappers
  import opened Sequences

  /** The engine's error when the favourites table was never created. */
  const NoSuchTable: string := "no such table: favourites"

  /** One row of `favourites`, without its key. */
  datatype Row = Row(name: string, imageUrl: string, createdAt: int)

  type Table = map<int, Row>

  /** A row as the read path returns it (`FavouritePokemon`). */
  datatype Favourite = Favourite(id: int, name: string, imageUrl: string, createdAt: int)

  /** `open` is whether the service holds a database handle; `table` is the favourites
      table in the database file (absent until `createTables` has run once), which
      outlives the process. */
  datatype Db = Db(open: bool, table: Option<Table>)

  /** What a store call throws: the missing handle ("Database not initialized") or the
      engine's own error message. */
  datatype DbError = NotInitialized | StorageError(message: string)

  /** A store call: what it returned or threw, and the store afterwards. */
  datatype Step<T> = Step(result: Result<T, DbError>, db: Db)

  function FavouriteOf(t: Table, id: int): (f: Favourite)
    requires id in t
    ensures f.id == id
  {
    Favourite(id, t[id].name, t[id].imageUrl, t[id].createdAt)
  }

  function CreatedAt(f: Favourite): int {
    f.createdAt
  }

  /** No id is listed twice. */
  ghost predicate DistinctIds(rows: seq<Favourite>) {
    forall i, j :: 0 <= i < j < |rows| ==> rows[i].id != rows[j].id
  }

  /** `rows` lists table `t` exactly: every row once, as stored, newest first. */
  ghost predicate ListsExactly(rows: seq<Favourite>, t: Table) {
    && SortedDesc(rows, CreatedAt)
    && |rows| == |t|
    && DistinctIds(rows)
    && (forall i :: 0 <= i < |rows| ==> rows[i].id in t && rows[i] == FavouriteOf(t, rows[i].id))
    && (forall id :: id in t ==> exists i :: 0 <= i < |rows| && rows[i].id == id)
  }

  /** The statement fails when the engine throws or the table does not exist. */
  function EngineFault(db: Db, fault: Option<string>): Option<string> {
    if fault.Some? then fault else if db.table.None? then Some(NoSuchTable) else None
  }

  // ---------------------------------------------------------------- lifecycle

  /** `createTables`: `CREATE TABLE IF NOT EXISTS`, so existing rows survive. */
  function CreateTables(db: Db, fault: Option<string>): (r: Step<()>)
    ensures !db.open ==> r == Step(Err(NotInitialized), db)
    ensures r.result.Ok? <==> db.open && fault.None?
    ensures r.result.Err? ==> r.db == db
    ensures r.result.Ok? ==> r.db.open && r.db.table.Some?
    ensures db.open && fault.Some? ==> r.result == Err(StorageError(fault.value))
    ensures r.result.Ok? && db.table.Some? ==> r.db == db
    ensures r.result.Ok? && db.table.None? ==> r.db.table == Some(map[])
  {
    if !db.open then Step(Err(NotInitialized), db)
    else if fault.Some? then Step(Err(StorageError(fault.value)), db)
    else if db.table.Some? then Step(Ok(()), db)
    else Step(Ok(()), db.(table := Some(map[])))
  }

  /** `initDatabase`: open the file, then create the table; any failure propagates. A
      failed open leaves the store as it was; a failed table creation leaves the handle
      open without a table. */
  function InitDatabase(db: Db, openFault: Option<string>, createFault: Option<string>): (r: Step<()>)
    ensures openFault.Some? ==> r == Step(Err(StorageError(openFault.value)), db)
    ensures openFault.None? ==> r.db.open
    ensures r.result.Ok? <==> openFault.None? && createFault.None?
    ensures r.db.table.Some? ==> (db.table.Some? ==> r.db.table == db.table)
    ensures r.result.Ok? ==> r.db.table.Some?
    ensures r.result.Err? ==> r.db.table == db.table
    ensures openFault.None? && createFault.Some? ==> r.result == Err(StorageError(createFault.value))
    ensures r.result.Ok? && db.table.None? ==> r.db.table == Some(map[])
  {
    if openFault.Some? then Step(Err(StorageError(openFault.value)), db)
    else CreateTables(db.(open := true), createFault)
  }

  // ---------------------------------------------------------------- writes: errors propagate

  /** `imageUrl || ""`. */
  function ImageOrEmpty(imageUrl: Option<string>): string {
    imageUrl.GetOr("")
  }

  /** `addFavourite`: `INSERT OR REPLACE`, so the id ends up with exactly the new name, image
      and a fresh `created_at`; every other row is untouched. A failure leaves the store as
      it was. */
  function AddFavourite(db: Db, id: int, name: string, imageUrl: Option<string>,
                        fault: Option<string>, now: int): (r: Step<()>)
    ensures !db.open ==> r == Step(Err(NotInitialized), db)
    ensures r.result.Ok? <==> db.open && EngineFault(db, fault).None?
    ensures db.open && EngineFault(db, fault).Some? ==> r.result == Err(StorageError(EngineFault(db, fault).value))
    ensures r.result.Err? ==> r.db == db
    ensures r.result.Ok? ==>
              && r.db.open && r.db.table.Some?
              && r.db.table.value.Keys == db.table.value.Keys + {id}
              && r.db.table.value[id] == Row(name, ImageOrEmpty(imageUrl), now)
              && forall k :: k in db.table.value && k != id ==> r.db.table.value[k] == db.table.value[k]
  {
    if !db.open then Step(Err(NotInitialized), db)
    else match EngineFault(db, fault)
      case Some(e) => Step(Err(StorageError(e)), db)
      case None => Step(Ok(()), db.(table := Some(db.table.value[id := Row(name, ImageOrEmpty(imageUrl), now)])))
  }

  /** `removeFavourite`: `DELETE ... WHERE id = ?`, a no-op for an absent id; every other
      row is untouched. A failure leaves the store as it was. */
  function RemoveFavourite(db: Db, id: int, fault: Option<string>): (r: Step<()>)
    ensures !db.open ==> r == Step(Err(NotInitialized), db)
    ensures r.result.Ok? <==> db.open && EngineFault(db, fault).None?
    ensures db.open && EngineFault(db, fault).Some? ==> r.result == Err(StorageError(EngineFault(db, fault).value))
    ensures r.result.Err? ==> r.db == db
    ensures r.result.Ok? ==>
              && r.db.open && r.db.table.Some?
              && r.db.table.value.Keys == db.table.value.Keys - {id}
              && forall k :: k in r.db.table.value ==> r.db.table.value[k] == db.table.value[k]
  {
    if !db.open then Step(Err(NotInitialized), db)
    else match EngineFault(db, fault)
      case Some(e) => Step(Err(StorageError(e)), db)
      case None => Step(Ok(()), db.(table := Some(db.table.value - {id})))
  }

  // ---------------------------------------------------------------- reads: errors swallowed

  /** `isFavourite`: whether a row has this id. Only the missing handle throws; an engine
      failure reads as `false`. */
  function IsFavourite(db: Db, id: int, fault: Option<string>): (r: Result<bool, DbError>)
    ensures !db.open <==> r == Err(NotInitialized)
    ensures db.open && EngineFault(db, fault).Some? ==> r == Ok(false)
    ensures db.open && EngineFault(db, fault).None? ==> r == Ok(id in db.table.value)
  {
    if !db.open then Err(NotInitialized)
    else if EngineFault(db, fault).Some? then Ok(false)
    else Ok(id in db.table.value)
  }

  /** Inserting a row whose id is new keeps the ids distinct. */
  lemma {:induction false} InsertKeepsIdsDistinct(f: Favourite, rows: seq<Favourite>)
    requires SortedDesc(rows, CreatedAt)
    requires DistinctIds(rows)
    requires forall i :: 0 <= i < |rows| ==> rows[i].id != f.id
    ensures DistinctIds(Insert(f, rows, CreatedAt))
    decreases |rows|
  {
    if rows == [] || CreatedAt(f) >= CreatedAt(rows[0]) {
    } else {
      var rest := Insert(f, rows[1..], CreatedAt);
      InsertKeepsIdsDistinct(f, rows[1..]);
      assert rows == [rows[0]] + rows[1..];
      SameElements(rest, rows[1..] + [f]);
      assert forall i :: 0 <= i < |rest| ==> rest[i].id != rows[0].id by {
        forall i | 0 <= i < |rest| ensures rest[i].id != rows[0].id {
          assert rest[i] in rows[1..] + [f];
        }
      }
    }
  }

  /** Set extensionality, stated so that a non-empty set yields a member to pick. */
  lemma EmptyIfNoMember(s: set<int>)
    ensures (forall k :: k !in s) ==> s == {}
  {
    if forall k :: k !in s {
      assert s == {};
    }
  }

  /** The rows of `t`, newest first; rows with equal `created_at` come in no promised order. */
  method SelectAllByCreatedDesc(t: Table) returns (rows: seq<Favourite>)
    ensures ListsExactly(rows, t)
  {
    rows := [];
    var todo := t.Keys;
    while todo != {}
      invariant todo <= t.Keys
      invariant |rows| + |todo| == |t|
      invariant SortedDesc(rows, CreatedAt)
      invariant DistinctIds(rows)
      invariant forall i :: 0 <= i < |rows| ==> rows[i].id in t && rows[i].id !in todo && rows[i] == FavouriteOf(t, rows[i].id)
      invariant forall id :: id in t && id !in todo ==> exists i :: 0 <= i < |rows| && rows[i].id == id
      decreases |todo|
    {
      EmptyIfNoMember(todo);
      var id :| id in todo;
      var f := FavouriteOf(t, id);
      InsertKeepsIdsDistinct(f, rows);
      var rows' := Insert(f, rows, CreatedAt);
      SameElements(rows', rows + [f]);
      assert forall i :: 0 <= i < |rows| ==> rows[i] in rows' by {
        forall i | 0 <= i < |rows| ensures rows[i] in rows' {
          assert (rows + [f])[i] == rows[i];
        }
      }
      assert f == (rows + [f])[|rows|];
      rows, todo := rows', todo - {id};
    }
  }

  /** `getAllFavourites`: every row, newest first. Only the missing handle throws; an
      engine failure reads as the empty list. */
  method GetAllFavourites(db: Db, fault: Option<string>) returns (r: Result<seq<Favourite>, DbError>)
    ensures !db.open <==> r == Err(NotInitialized)
    ensures db.open && EngineFault(db, fault).Some? ==> r == Ok([])
    ensures db.open && EngineFault(db, fault).None? ==> r.Ok? && ListsExactly(r.value, db.table.value)
  {
    if !db.open {
      return Err(NotInitialized);
    }
    if EngineFault(db, fault).Some? {
      return Ok([]);
    }
    var rows := SelectAllByCreatedDesc(db.table.value);
    return Ok(rows);
  }

  // ---------------------------------------------------------------- properties across calls

  /** After a successful add the id is a favourite; after a successful remove it is not,
      and removing again changes nothing. */
  lemma AddRemoveMembership(db: Db, id: int, name: string, imageUrl: Option<string>, now: int)
    ensures AddFavourite(db, id, name, imageUrl, None, now).result.Ok? ==>
              IsFavourite(AddFavourite(db, id, name, imageUrl, None, now).db, id, None) == Ok(true)
    ensures RemoveFavourite(db, id, None).result.Ok? ==>
              && IsFavourite(RemoveFavourite(db, id, None).db, id, None) == Ok(false)
              && RemoveFavourite(RemoveFavourite(db, id, None).db, id, None) == RemoveFavourite(db, id, None)
  {
    if RemoveFavourite(db, id, None).result.Ok? {
      var t := db.table.value;
      assert t - {id} - {id} == t - {id};
    }
  }

  /** Adding an id twice leaves one row for it, holding the second call's values and time. */
  lemma UpsertReplaces(db: Db, id: int, name1: string, image1: Option<string>, now1: int,
                       name2: string, image2: Option<string>, now2: int)
    requires AddFavourite(db, id, name1, image1, None, now1).result.Ok?
    ensures AddFavourite(AddFavourite(db, id, name1, image1, None, now1).db, id, name2, image2, None, now2).db.table
            == Some(db.table.value[id := Row(name2, ImageOrEmpty(image2), now2)])
  {
    var t := db.table.value;
    assert t[id := Row(name1, ImageOrEmpty(image1), now1)][id := Row(name2, ImageOrEmpty(image2), now2)]
           == t[id := Row(name2, ImageOrEmpty(image2), now2)];
  }

  /** A listing names each id at most once, so after an upsert exactly one listed row has that id. */
  lemma ListedOnce(rows: seq<Favourite>, t: Table, id: int)
    requires ListsExactly(rows, t)
    requires id in t
    ensures exists i :: 0 <= i < |rows| && rows[i].id == id && forall j :: 0 <= j < |rows| && j != i ==> rows[j].id != id
  {
    var i :| 0 <= i < |rows| && rows[i].id == id;
    assert forall j :: 0 <= j < |rows| && j != i ==> rows[j].id != id by {
      forall j | 0 <= j < |rows| && j != i ensures rows[j].id != id {
        if j < i {
          assert rows[j].id != rows[i].id;
        } else {
          assert rows[i].id != rows[j].id;
        }
      }
    }
  }
}

=== FILE: favourites_sync.dfy ===
/** The favourites hooks of hooks/use-favourites.ts: an optimistic toggle over the UI query
    cache, the join of favourites with catalog entities, and the pure list views built on
    them.

    The query cache is modelled as the entries these hooks read or write, each with its
    data and a `stale` flag that `invalidateQueries` raises. Promise.all is a sequential,
    order-preserving map. */
module FavouritesSync {
  import opened Wrappers
  import opened Text
  import opened Sequences
  import opened Catalog
  import opened FavouritesStore
  import ApiCache

  /** One query-cache entry: its data (absent until fetched or set) and whether it was
      invalidated since it was last set. */
  datatype Query<T> = Query(data: Option<T>, stale: bool)

  /** The query-cache entries the favourites hooks touch, by query key:
      `status[id]`   ["pokemon", "favourite-status", id]
      `list`         ["pokemon", "favourites"]
      `details[ids]` ["pokemon", "favourites", "details", ids]
      `bulk[ids]`    ["pokemon", "bulk-favourite-status", ids] */
  datatype Views = Views(
    status: map<int, Query<bool>>,
    list: Option<Query<seq<Favourite>>>,
    details: map<seq<int>, Query<seq<Pokemon>>>,
    bulk: map<seq<int>, Query<map<int, bool>>>)

  /** `getQueryData` of the status entry for `id`. */
  function StatusOf(v: Views, id: int): Option<bool> {
    if id in v.status then v.status[id].data else None
  }

  /** `getQueryData` of the favourites list entry. */
  function ListOf(v: Views): Option<seq<Favourite>> {
    if v.list.Some? then v.list.value.data else None
  }

  /** `setQueryData`: the entry holds `b` and is fresh. */
  function SetStatus(v: Views, id: int, b: bool): Views {
    v.(status := v.status[id := Query(Some(b), false)])
  }

  function SetList(v: Views, l: seq<Favourite>): Views {
    v.(list := Some(Query(Some(l), false)))
  }

  function MarkStale<T>(q: Query<T>): Query<T> {
    q.(stale := true)
  }

  /** `invalidateQueries` over every entry of one family: data kept, all marked stale. */
  function StaleAll<K, T>(m: map<K, Query<T>>): (r: map<K, Query<T>>)
    ensures r.Keys == m.Keys
    ensures forall k :: k in m ==> r[k] == MarkStale(m[k])
  {
    map k | k in m :: MarkStale(m[k])
  }

  // ---------------------------------------------------------------- optimistic toggle

  /** The variables of one toggle. */
  datatype Toggle = Toggle(id: int, name: string, imageUrl: Option<string>, isCurrentlyFavourite: bool)

  /** What `onMutate` hands to `onError`: both entries as they were before it wrote. */
  datatype Snapshot = Snapshot(previousStatus: Option<bool>, previousList: Option<seq<Favourite>>)

  datatype Mutated = Mutated(views: Views, context: Snapshot)

  /** The record the optimistic add shows until the store answers. */
  function NewFavourite(t: Toggle, now: int): Favourite {
    Favourite(t.id, t.name, ImageOrEmpty(t.imageUrl), now)
  }

  function HasOtherId(id: int): Favourite -> bool {
    (f: Favourite) => f.id != id
  }

  /** The favourites list as the toggle projects it: without every entry for the id when
      removing (an absent list becomes empty), or with a new record in front when adding. */
  function ProjectList(previous: Option<seq<Favourite>>, t: Toggle, now: int): (r: seq<Favourite>)
    ensures t.isCurrentlyFavourite ==>
              && (forall i :: 0 <= i < |r| ==> r[i].id != t.id && r[i] in previous.GetOr([]))
              && (forall i :: 0 <= i < |previous.GetOr([])| && previous.GetOr([])[i].id != t.id ==> previous.GetOr([])[i] in r)
    ensures t.isCurrentlyFavourite ==>
              forall i :: 0 <= i < |previous.GetOr([])| ==>
                multiset(r)[previous.GetOr([])[i]] ==
                if previous.GetOr([])[i].id != t.id then multiset(previous.GetOr([]))[previous.GetOr([])[i]] else 0
    ensures !t.isCurrentlyFavourite ==>
              |r| == |previous.GetOr([])| + 1 && r[0] == NewFavourite(t, now) && r[1..] == previous.GetOr([])
  {
    if t.isCurrentlyFavourite then
      FilterCount(previous.GetOr([]), HasOtherId(t.id));
      Filter(previous.GetOr([]), HasOtherId(t.id))
    else [NewFavourite(t, now)] + previous.GetOr([])
  }

  /** The optimistic removal keeps the list's order: projecting a concatenation projects
      each part in place. */
  lemma ProjectedRemovalKeepsOrder(a: seq<Favourite>, b: seq<Favourite>, t: Toggle, now: int)
    requires t.isCurrentlyFavourite
    ensures ProjectList(Some(a + b), t, now) == ProjectList(Some(a), t, now) + ProjectList(Some(b), t, now)
  {
    FilterAppend(a, b, HasOtherId(t.id));
  }

  /** `onMutate`: snapshot both entries first, then show the flipped status and the
      projected list. No other entry changes. */
  function OnMutate(v: Views, t: Toggle, now: int): (r: Mutated)
    ensures r.context == Snapshot(StatusOf(v, t.id), ListOf(v))
    ensures r.views.status.Keys == v.status.Keys + {t.id}
    ensures r.views.status[t.id] == Query(Some(!t.isCurrentlyFavourite), false)
    ensures forall id :: id in v.status && id != t.id ==> r.views.status[id] == v.status[id]
    ensures r.views.list == Some(Query(Some(ProjectList(ListOf(v), t, now)), false))
    ensures r.views.details == v.details && r.views.bulk == v.bulk
  {
    var context := Snapshot(StatusOf(v, t.id), ListOf(v));
    var v1 := SetStatus(v, t.id, !t.isCurrentlyFavourite);
    Mutated(SetList(v1, ProjectList(ListOf(v), t, now)), context)
  }

  /** `mutationFn`: the durable write, remove when currently a favourite and add
      otherwise; answers the new status. A failed write changes nothing. */
  function MutationFn(db: Db, t: Toggle, fault: Option<string>, storedAt: int): (r: Step<bool>)
    ensures r.result.Ok? ==> r.result.value == !t.isCurrentlyFavourite
    ensures r.result.Ok? ==> IsFavourite(r.db, t.id, None) == Ok(!t.isCurrentlyFavourite)
    ensures r.result.Ok? <==> db.open && EngineFault(db, fault).None?
    ensures r.result.Err? ==> r.db == db
    ensures !db.open ==> r.result == Err(NotInitialized)
    ensures db.open && EngineFault(db, fault).Some? ==> r.result == Err(StorageError(EngineFault(db, fault).value))
    ensures r.result.Ok? && t.isCurrentlyFavourite ==> r.db == Db(true, Some(db.table.value - {t.id}))
    ensures r.result.Ok? && !t.isCurrentlyFavourite ==>
              r.db == Db(true, Some(db.table.value[t.id := Row(t.name, ImageOrEmpty(t.imageUrl), storedAt)]))
  {
    var step := if t.isCurrentlyFavourite then RemoveFavourite(db, t.id, fault)
                else AddFavourite(db, t.id, t.name, t.imageUrl, fault, storedAt);
    match step.result
    case Ok(_) => Step(Ok(!t.isCurrentlyFavourite), step.db)
    case Err(e) => Step(Err(e), step.db)
  }

  /** `onError` as written: the status is put back only when the snapshot is truthy (a
      previous `true`); the list whenever a snapshot array exists, even an empty one. */
  function OnError(v: Views, t: Toggle, context: Snapshot): (r: Views)
    ensures context.previousStatus == Some(true) ==> r.status == v.status[t.id := Query(Some(true), false)]
    ensures context.previousStatus != Some(true) ==> r.status == v.status
    ensures context.previousList.Some? ==> r.list == Some(Query(context.previousList, false))
    ensures context.previousList.None? ==> r.list == v.list
    ensures r.details == v.details && r.bulk == v.bulk
  {
    var v1 := if context.previousStatus == Some(true) then SetStatus(v, t.id, true) else v;
    if context.previousList.Some? then SetList(v1, context.previousList.value) else v1
  }

  /** `onSuccess`: invalidate ["pokemon", "favourites"], which by prefix also covers every
      details entry, and this id's status entry. Data is kept; nothing else changes. */
  function OnSuccess(v: Views, id: int): (r: Views)
    ensures r.list == (if v.list.Some? then Some(MarkStale(v.list.value)) else None)
    ensures r.details == StaleAll(v.details)
    ensures r.status.Keys == v.status.Keys
    ensures id in v.status ==> r.status[id] == MarkStale(v.status[id])
    ensures forall k :: k in v.status && k != id ==> r.status[k] == v.status[k]
    ensures r.bulk == v.bulk
  {
    Views(
      if id in v.status then v.status[id := MarkStale(v.status[id])] else v.status,
      if v.list.Some? then Some(MarkStale(v.list.value)) else None,
      StaleAll(v.details),
      v.bulk)
  }

  datatype ToggleOutcome = ToggleOutcome(result: Result<bool, DbError>, views: Views, db: Db)

  /** One `useToggleFavourite` mutation: `onMutate`, then the write, then `onSuccess` or
      `onError`. `now` is the client's clock stamped on the optimistic record, `storedAt`
      the engine's `CURRENT_TIMESTAMP` stamped on the stored row. */
  function ToggleFavourite(v: Views, db: Db, t: Toggle, fault: Option<string>, now: int, storedAt: int): (r: ToggleOutcome)
    ensures r.result == MutationFn(db, t, fault, storedAt).result
    ensures r.db == MutationFn(db, t, fault, storedAt).db
    // frame: other statuses, the bulk entries and every details entry's data are untouched
    ensures forall id :: id != t.id ==> StatusOf(r.views, id) == StatusOf(v, id)
    ensures r.views.bulk == v.bulk
    ensures r.views.details.Keys == v.details.Keys
    ensures forall k :: k in v.details ==> r.views.details[k].data == v.details[k].data
    ensures r.result.Ok? ==> forall k :: k in r.views.details ==> r.views.details[k].stale
    ensures r.result.Err? ==> r.views.details == v.details
    ensures forall id :: id in v.status && id != t.id ==> id in r.views.status && r.views.status[id] == v.status[id]
    // success: the store is flipped and the flipped status and projected list stay on screen, stale
    ensures r.result.Ok? ==>
              && IsFavourite(r.db, t.id, None) == Ok(!t.isCurrentlyFavourite)
              && StatusOf(r.views, t.id) == Some(!t.isCurrentlyFavourite)
              && r.views.status[t.id].stale
              && r.views.list == Some(Query(Some(ProjectList(ListOf(v), t, now)), true))
    // failure: the store is unchanged; a snapshotted list comes back, an absent one stays projected;
    // the status comes back only from `true`
    ensures r.result.Err? ==>
              && r.db == db
              && (ListOf(v).Some? ==> ListOf(r.views) == ListOf(v))
              && (ListOf(v).None? ==> ListOf(r.views) == Some(ProjectList(None, t, now)))
              && (StatusOf(v, t.id) == Some(true) ==> StatusOf(r.views, t.id) == Some(true))
              && (StatusOf(v, t.id) != Some(true) ==> StatusOf(r.views, t.id) == Some(!t.isCurrentlyFavourite))
  {
    var m := OnMutate(v, t, now);
    var step := MutationFn(db, t, fault, storedAt);
    match step.result
    case Ok(_) => ToggleOutcome(step.result, OnSuccess(m.views, t.id), step.db)
    case Err(_) => ToggleOutcome(step.result, OnError(m.views, t, m.context), step.db)
  }

  /** A previous `false` is not restored: after a failed add over a `false` status the
      screen keeps showing `true` although nothing was stored. */
  lemma FalseStatusSurvivesFailedAdd()
    ensures var v := Views(map[7 := Query(Some(false), false)], None, map[], map[]);
            var t := Toggle(7, "pikachu", None, false);
            var db := Db(true, Some(map[]));
            && ToggleFavourite(v, db, t, Some("disk I/O error"), 0, 0).result.Err?
            && StatusOf(ToggleFavourite(v, db, t, Some("disk I/O error"), 0, 0).views, 7) == Some(true)
            && IsFavourite(ToggleFavourite(v, db, t, Some("disk I/O error"), 0, 0).db, 7, None) == Ok(false)
  {
  }

  /** The rollback the snapshots allow: put back whatever each entry held, `false` and
      absent included. */
  function RollBack(v: Views, t: Toggle, context: Snapshot): (r: Views)
    ensures StatusOf(r, t.id) == context.previousStatus
    ensures ListOf(r) == context.previousList
    ensures forall id :: id != t.id ==> StatusOf(r, id) == StatusOf(v, id)
    ensures r.details == v.details && r.bulk == v.bulk
  {
    v.(status := v.status[t.id := Query(context.previousStatus, false)],
       list := Some(Query(context.previousList, false)))
  }

  /** With that rollback a failed toggle is fully undone on screen. */
  lemma RollBackUndoesOnMutate(v: Views, t: Toggle, now: int)
    ensures var m := OnMutate(v, t, now);
            && StatusOf(RollBack(m.views, t, m.context), t.id) == StatusOf(v, t.id)
            && ListOf(RollBack(m.views, t, m.context)) == ListOf(v)
            && forall id :: StatusOf(RollBack(m.views, t, m.context), id) == StatusOf(v, id)
  {
  }

  /** The toggle with that rollback: a success is as before, and a failure leaves the store,
      every status and the list exactly as they were. */
  function ToggleWithRollBack(v: Views, db: Db, t: Toggle, fault: Option<string>, now: int, storedAt: int): (r: ToggleOutcome)
    ensures r.result == MutationFn(db, t, fault, storedAt).result
    ensures r.result.Ok? ==> r == ToggleFavourite(v, db, t, fault, now, storedAt)
    ensures r.result.Err? ==>
              && r.db == db
              && ListOf(r.views) == ListOf(v)
              && (forall id :: StatusOf(r.views, id) == StatusOf(v, id))
              && r.views.details == v.details && r.views.bulk == v.bulk
  {
    var m := OnMutate(v, t, now);
    var step := MutationFn(db, t, fault, storedAt);
    match step.result
    case Ok(_) => ToggleOutcome(step.result, OnSuccess(m.views, t.id), step.db)
    case Err(_) => ToggleOutcome(step.result, RollBack(m.views, t, m.context), step.db)
  }

  // ---------------------------------------------------------------- favourites with details

  datatype Batch = Batch(outcomes: seq<Option<Pokemon>>, cache: ApiCache.Cache)

  /** The entity `getPokemonById(id)` may answer with, given cache `c` at time `now`: the
      fresh cached one, or the one the network returns for the id's URL. */
  predicate CachedOrFetched(c: ApiCache.Cache, id: int, fetch: string -> ApiCache.Response<Pokemon>,
                            now: int, o: Option<Pokemon>)
  {
    || o == ApiCache.LookupAs(c, ApiCache.KeyOf(ApiCache.IdReq(id)), now, ApiCache.AsPokemon)
    || o == ApiCache.FetchApi(fetch(ApiCache.UrlOf(ApiCache.IdReq(id)))).ToOption()
  }

  /** Every fresh entity `c'` holds for an id is one `c` held or the network returns. */
  ghost predicate Agrees(c: ApiCache.Cache, c': ApiCache.Cache, fetch: string -> ApiCache.Response<Pokemon>, now: int) {
    forall id :: ApiCache.LookupAs(c', ApiCache.KeyOf(ApiCache.IdReq(id)), now, ApiCache.AsPokemon).Some? ==>
      CachedOrFetched(c, id, fetch, now, ApiCache.LookupAs(c', ApiCache.KeyOf(ApiCache.IdReq(id)), now, ApiCache.AsPokemon))
  }

  /** Every entry `c` holds fresh for a pokemon id, `c'` still holds unchanged. */
  ghost predicate Keeps(c: ApiCache.Cache, c': ApiCache.Cache, now: int) {
    forall id :: CachedFor(c, id, now).Some? ==>
      ApiCache.KeyOf(ApiCache.IdReq(id)) in c' && c'[ApiCache.KeyOf(ApiCache.IdReq(id))] == c[ApiCache.KeyOf(ApiCache.IdReq(id))]
  }

  /** `c'` differs from `c` only at `keys`: every other entry is kept and no other key added. */
  ghost predicate OnlyKeysChange(c: ApiCache.Cache, c': ApiCache.Cache, keys: set<string>) {
    && c'.Keys <= c.Keys + keys
    && forall k :: k in c && k !in keys ==> k in c' && c'[k] == c[k]
  }

  /** The cache keys of `getPokemonById` for the given ids. */
  function IdKeys(ids: seq<int>): (keys: set<string>)
    ensures forall i :: 0 <= i < |ids| ==> ApiCache.KeyOf(ApiCache.IdReq(ids[i])) in keys
  {
    set i | 0 <= i < |ids| :: ApiCache.KeyOf(ApiCache.IdReq(ids[i]))
  }

  /** The entry `getPokemonById` stores for a fetched entity. */
  function FetchedEntry(fetch: string -> ApiCache.Response<Pokemon>, id: int, storedAt: int): ApiCache.Entry
    requires !FetchFails(fetch, id)
  {
    ApiCache.Entry(ApiCache.WrapPokemon(ApiCache.FetchApi(fetch(ApiCache.UrlOf(ApiCache.IdReq(id)))).value), storedAt)
  }

  /** When `c` has no fresh entity for `id` and the network answers, `c'` holds the answer
      under the id's key, stamped `storedAt`. */
  ghost predicate StoresFetched(c: ApiCache.Cache, c': ApiCache.Cache, id: int,
                                fetch: string -> ApiCache.Response<Pokemon>, now: int, storedAt: int)
  {
    CachedFor(c, id, now).None? && !FetchFails(fetch, id) ==>
      && ApiCache.KeyOf(ApiCache.IdReq(id)) in c'
      && c'[ApiCache.KeyOf(ApiCache.IdReq(id))] == FetchedEntry(fetch, id, storedAt)
  }

  /** One `getPokemonById` answers with the cached or the fetched entity; what it stores
      agrees with the cache before it, and it overwrites no fresh entity. */
  lemma OneFetchAgrees(c: ApiCache.Cache, id: int, fetch: string -> ApiCache.Response<Pokemon>, now: int, storedAt: int)
    ensures var r := ApiCache.GetPokemonById(c, id, fetch, now, storedAt);
            && (r.result.Ok? ==> CachedOrFetched(c, id, fetch, now, Some(r.result.value)))
            && Agrees(c, r.cache, fetch, now)
            && Keeps(c, r.cache, now)
  {
    var r := ApiCache.GetPokemonById(c, id, fetch, now, storedAt);
    var key := ApiCache.KeyOf(ApiCache.IdReq(id));
    forall id' | ApiCache.LookupAs(r.cache, ApiCache.KeyOf(ApiCache.IdReq(id')), now, ApiCache.AsPokemon).Some?
      ensures CachedOrFetched(c, id', fetch, now,
                ApiCache.LookupAs(r.cache, ApiCache.KeyOf(ApiCache.IdReq(id')), now, ApiCache.AsPokemon))
    {
      var key' := ApiCache.KeyOf(ApiCache.IdReq(id'));
      if r.cache != c {
        if key' == key {
          ApiCache.KeyInjective(ApiCache.IdReq(id'), ApiCache.IdReq(id));
        } else {
          assert ApiCache.Lookup(r.cache, key', now) == ApiCache.Lookup(c, key', now);
        }
      }
    }
    forall id' | CachedFor(c, id', now).Some?
      ensures ApiCache.KeyOf(ApiCache.IdReq(id')) in r.cache
              && r.cache[ApiCache.KeyOf(ApiCache.IdReq(id'))] == c[ApiCache.KeyOf(ApiCache.IdReq(id'))]
    {
      var key' := ApiCache.KeyOf(ApiCache.IdReq(id'));
      if r.cache != c {
        assert key' != key;
      }
    }
  }

  /** One `getPokemonById` stores what it fetched under its own key and touches no other. */
  lemma OneFetchStores(c: ApiCache.Cache, id: int, fetch: string -> ApiCache.Response<Pokemon>, now: int, storedAt: int)
    ensures var r := ApiCache.GetPokemonById(c, id, fetch, now, storedAt);
            && StoresFetched(c, r.cache, id, fetch, now, storedAt)
            && OnlyKeysChange(c, r.cache, {ApiCache.KeyOf(ApiCache.IdReq(id))})
  {
  }

  /** Keeping composes along a chain of caches. */
  lemma KeepsTrans(c0: ApiCache.Cache, c1: ApiCache.Cache, c2: ApiCache.Cache, now: int)
    requires Keeps(c0, c1, now) && Keeps(c1, c2, now)
    ensures Keeps(c0, c2, now)
  {
  }

  /** Agreement composes along a chain of caches. */
  lemma AgreesTrans(c0: ApiCache.Cache, c1: ApiCache.Cache, c2: ApiCache.Cache,
                    fetch: string -> ApiCache.Response<Pokemon>, now: int)
    requires Agrees(c0, c1, fetch, now) && Agrees(c1, c2, fetch, now)
    ensures Agrees(c0, c2, fetch, now)
  {
  }

  /** The fresh entity cache `c` holds for `id` at time `now`, if any. */
  function CachedFor(c: ApiCache.Cache, id: int, now: int): Option<Pokemon> {
    ApiCache.LookupAs(c, ApiCache.KeyOf(ApiCache.IdReq(id)), now, ApiCache.AsPokemon)
  }

  /** Whether the network fails for the id's URL. */
  predicate FetchFails(fetch: string -> ApiCache.Response<Pokemon>, id: int) {
    ApiCache.FetchApi(fetch(ApiCache.UrlOf(ApiCache.IdReq(id)))).Err?
  }

  /** What `getPokemonById(id).catch(() => null)` answers against cache `c`: a fresh cached
      entity as it is; otherwise the fetched one, or nothing exactly when the fetch fails. */
  predicate Served(c: ApiCache.Cache, id: int, fetch: string -> ApiCache.Response<Pokemon>, now: int,
                   o: Option<Pokemon>)
  {
    && (o.None? <==> CachedFor(c, id, now).None? && FetchFails(fetch, id))
    && (CachedFor(c, id, now).Some? ==> o == CachedFor(c, id, now))
    && (o.Some? ==> CachedOrFetched(c, id, fetch, now, o))
  }

  /** An answer served against a later cache in the chain is one served against `c`. */
  lemma ServedEarlier(c: ApiCache.Cache, c1: ApiCache.Cache, id: int, fetch: string -> ApiCache.Response<Pokemon>,
                      now: int, o: Option<Pokemon>)
    requires Agrees(c, c1, fetch, now) && Keeps(c, c1, now)
    requires Served(c1, id, fetch, now, o)
    ensures Served(c, id, fetch, now, o)
  {
    if CachedFor(c1, id, now).Some? {
      assert CachedOrFetched(c, id, fetch, now, CachedFor(c1, id, now));
    }
    if CachedFor(c, id, now).Some? {
      assert CachedFor(c1, id, now) == CachedFor(c, id, now);
    }
  }

  /** An entity stored by the first call survives the rest of the batch. */
  lemma StoredKept(c: ApiCache.Cache, c1: ApiCache.Cache, c2: ApiCache.Cache, id: int, tail: seq<int>,
                   fetch: string -> ApiCache.Response<Pokemon>, now: int, storedAt: int)
    requires StoresFetched(c, c1, id, fetch, now, storedAt)
    requires OnlyKeysChange(c1, c2, IdKeys(tail)) && Keeps(c1, c2, now)
    requires forall i :: 0 <= i < |tail| ==> StoresFetched(c1, c2, tail[i], fetch, now, storedAt)
    ensures StoresFetched(c, c2, id, fetch, now, storedAt)
  {
    var key := ApiCache.KeyOf(ApiCache.IdReq(id));
    if CachedFor(c, id, now).None? && !FetchFails(fetch, id) && key in IdKeys(tail) {
      var i :| 0 <= i < |tail| && ApiCache.KeyOf(ApiCache.IdReq(tail[i])) == key;
      ApiCache.KeyInjective(ApiCache.IdReq(tail[i]), ApiCache.IdReq(id));
      assert StoresFetched(c1, c2, tail[i], fetch, now, storedAt);
    }
  }

  /** An entity stored later in the batch is one stored against the cache it started from. */
  lemma StoredEarlier(c: ApiCache.Cache, c1: ApiCache.Cache, c2: ApiCache.Cache, id0: int, id: int,
                      fetch: string -> ApiCache.Response<Pokemon>, now: int, storedAt: int)
    requires StoresFetched(c, c1, id0, fetch, now, storedAt)
    requires OnlyKeysChange(c, c1, {ApiCache.KeyOf(ApiCache.IdReq(id0))}) && Keeps(c1, c2, now)
    requires StoresFetched(c1, c2, id, fetch, now, storedAt)
    ensures StoresFetched(c, c2, id, fetch, now, storedAt)
  {
    var key := ApiCache.KeyOf(ApiCache.IdReq(id));
    if CachedFor(c, id, now).None? && !FetchFails(fetch, id) {
      if key == ApiCache.KeyOf(ApiCache.IdReq(id0)) {
        ApiCache.KeyInjective(ApiCache.IdReq(id), ApiCache.IdReq(id0));
      } else {
        assert CachedFor(c1, id, now) == CachedFor(c, id, now);
      }
    }
  }

  /** `StoredEarlier` for every id of the rest of the batch. */
  lemma StoredEarlierAll(c: ApiCache.Cache, c1: ApiCache.Cache, c2: ApiCache.Cache, id0: int, ids: seq<int>,
                         fetch: string -> ApiCache.Response<Pokemon>, now: int, storedAt: int)
    requires StoresFetched(c, c1, id0, fetch, now, storedAt)
    requires OnlyKeysChange(c, c1, {ApiCache.KeyOf(ApiCache.IdReq(id0))}) && Keeps(c1, c2, now)
    requires forall i :: 0 <= i < |ids| ==> StoresFetched(c1, c2, ids[i], fetch, now, storedAt)
    ensures forall i :: 0 <= i < |ids| ==> StoresFetched(c, c2, ids[i], fetch, now, storedAt)
  {
    forall i | 0 <= i < |ids|
      ensures StoresFetched(c, c2, ids[i], fetch, now, storedAt)
    {
      StoredEarlier(c, c1, c2, id0, ids[i], fetch, now, storedAt);
    }
  }

  /** The keys of a batch are its first id's key and the rest's keys. */
  lemma IdKeysCons(id: int, tail: seq<int>)
    ensures IdKeys([id] + tail) == {ApiCache.KeyOf(ApiCache.IdReq(id))} + IdKeys(tail)
  {
    var ids := [id] + tail;
    forall k | k in IdKeys(ids) ensures k in {ApiCache.KeyOf(ApiCache.IdReq(id))} + IdKeys(tail) {
      var i :| 0 <= i < |ids| && ApiCache.KeyOf(ApiCache.IdReq(ids[i])) == k;
      if i > 0 {
        assert ids[i] == tail[i - 1];
      }
    }
    forall k | k in IdKeys(tail) ensures k in IdKeys(ids) {
      var i :| 0 <= i < |tail| && ApiCache.KeyOf(ApiCache.IdReq(tail[i])) == k;
      assert ids[i + 1] == tail[i];
    }
    assert ids[0] == id;
  }

  /** Changes confined to `k1` then to `k2` are confined to both. */
  lemma OnlyKeysChangeTrans(c0: ApiCache.Cache, c1: ApiCache.Cache, c2: ApiCache.Cache, k1: set<string>, k2: set<string>)
    requires OnlyKeysChange(c0, c1, k1) && OnlyKeysChange(c1, c2, k2)
    ensures OnlyKeysChange(c0, c2, k1 + k2)
  {
  }

  /** `getPokemonById` for each id in turn, a failure becoming `None` (`.catch(() => null)`).
      Each answer is served against the cache the batch started from: the entities fetched
      earlier in the batch overwrite no fresh one and supply no answer the network would not. */
  function FetchEach(c: ApiCache.Cache, ids: seq<int>, fetch: string -> ApiCache.Response<Pokemon>,
                     now: int, storedAt: int): (r: Batch)
    ensures |r.outcomes| == |ids|
    ensures ApiCache.WellTyped(c) ==> ApiCache.WellTyped(r.cache)
    ensures forall i :: 0 <= i < |ids| ==> Served(c, ids[i], fetch, now, r.outcomes[i])
    ensures Agrees(c, r.cache, fetch, now)
    ensures Keeps(c, r.cache, now)
    // every entity fetched is left in the cache; only the batch's own keys change
    ensures forall i :: 0 <= i < |ids| ==> StoresFetched(c, r.cache, ids[i], fetch, now, storedAt)
    ensures OnlyKeysChange(c, r.cache, IdKeys(ids))
    decreases |ids|
  {
    if ids == [] then Batch([], c)
    else
      var first := ApiCache.GetPokemonById(c, ids[0], fetch, now, storedAt);
      var rest := FetchEach(first.cache, ids[1..], fetch, now, storedAt);
      OneFetchAgrees(c, ids[0], fetch, now, storedAt);
      AgreesTrans(c, first.cache, rest.cache, fetch, now);
      KeepsTrans(c, first.cache, rest.cache, now);
      FirstServed(c, ids[0], fetch, now, storedAt);
      assert ids == [ids[0]] + ids[1..];
      ServedEarlierAll(c, first.cache, ids[1..], fetch, now, rest.outcomes);
      ServedCons(c, ids[0], ids[1..], fetch, now, first.result.ToOption(), rest.outcomes);
      OneFetchStores(c, ids[0], fetch, now, storedAt);
      StoredKept(c, first.cache, rest.cache, ids[0], ids[1..], fetch, now, storedAt);
      StoredEarlierAll(c, first.cache, rest.cache, ids[0], ids[1..], fetch, now, storedAt);
      IdKeysCons(ids[0], ids[1..]);
      OnlyKeysChangeTrans(c, first.cache, rest.cache, {ApiCache.KeyOf(ApiCache.IdReq(ids[0]))}, IdKeys(ids[1..]));
      StoredCons(c, rest.cache, ids[0], ids[1..], fetch, now, storedAt);
      Batch([first.result.ToOption()] + rest.outcomes, rest.cache)
  }

  /** The first call of a batch is served against the cache it starts from. */
  lemma FirstServed(c: ApiCache.Cache, id: int, fetch: string -> ApiCache.Response<Pokemon>, now: int, storedAt: int)
    ensures Served(c, id, fetch, now, ApiCache.GetPokemonById(c, id, fetch, now, storedAt).result.ToOption())
  {
    OneFetchAgrees(c, id, fetch, now, storedAt);
  }

  /** Answers served against a later cache `c1` in the chain are served against `c`. */
  lemma ServedEarlierAll(c: ApiCache.Cache, c1: ApiCache.Cache, ids: seq<int>,
                         fetch: string -> ApiCache.Response<Pokemon>, now: int, outcomes: seq<Option<Pokemon>>)
    requires |outcomes| == |ids|
    requires Agrees(c, c1, fetch, now) && Keeps(c, c1, now)
    requires forall i :: 0 <= i < |ids| ==> Served(c1, ids[i], fetch, now, outcomes[i])
    ensures forall i :: 0 <= i < |ids| ==> Served(c, ids[i], fetch, now, outcomes[i])
  {
    forall i | 0 <= i < |ids|
      ensures Served(c, ids[i], fetch, now, outcomes[i])
    {
      ServedEarlier(c, c1, ids[i], fetch, now, outcomes[i]);
    }
  }

  /** Prepending one stored entity keeps every entity stored. */
  lemma StoredCons(c: ApiCache.Cache, c2: ApiCache.Cache, id: int, tail: seq<int>,
                   fetch: string -> ApiCache.Response<Pokemon>, now: int, storedAt: int)
    requires StoresFetched(c, c2, id, fetch, now, storedAt)
    requires forall i :: 0 <= i < |tail| ==> StoresFetched(c, c2, tail[i], fetch, now, storedAt)
    ensures forall i :: 0 <= i < |tail| + 1 ==> StoresFetched(c, c2, ([id] + tail)[i], fetch, now, storedAt)
  {
    assert forall i :: 0 < i < |tail| + 1 ==> ([id] + tail)[i] == tail[i - 1];
  }

  /** Prepending one served answer keeps every answer served. */
  lemma ServedCons(c: ApiCache.Cache, id: int, tail: seq<int>, fetch: string -> ApiCache.Response<Pokemon>,
                   now: int, head: Option<Pokemon>, rest: seq<Option<Pokemon>>)
    requires |rest| == |tail|
    requires Served(c, id, fetch, now, head)
    requires forall i :: 0 <= i < |tail| ==> Served(c, tail[i], fetch, now, rest[i])
    ensures forall i :: 0 <= i < |tail| + 1 ==> Served(c, ([id] + tail)[i], fetch, now, ([head] + rest)[i])
  {
    assert forall i :: 0 < i < |tail| + 1 ==> ([id] + tail)[i] == tail[i - 1] && ([head] + rest)[i] == rest[i - 1];
  }

  /** The entities that arrived, in order; the failed ids are dropped. */
  function Survivors(outcomes: seq<Option<Pokemon>>): (r: seq<Pokemon>)
    ensures |r| <= |outcomes|
    ensures forall i :: 0 <= i < |r| ==> Some(r[i]) in outcomes
    ensures forall i :: 0 <= i < |outcomes| && outcomes[i].Some? ==> outcomes[i].value in r
    decreases |outcomes|
  {
    if outcomes == [] then []
    else
      var rest := Survivors(outcomes[1..]);
      assert forall i :: 1 <= i < |outcomes| ==> outcomes[i] == outcomes[1..][i - 1];
      (match outcomes[0] case Some(p) => [p] case None => []) + rest
  }

  /** `filter(result !== null)` keeps every copy: each arrived entity appears as often as
      it arrived. */
  lemma {:induction false} SurvivorsCount(outcomes: seq<Option<Pokemon>>)
    ensures forall i :: 0 <= i < |outcomes| && outcomes[i].Some? ==>
              multiset(Survivors(outcomes))[outcomes[i].value] == multiset(outcomes)[outcomes[i]]
    decreases |outcomes|
  {
    if outcomes != [] {
      var tail := outcomes[1..];
      SurvivorsCount(tail);
      assert outcomes == [outcomes[0]] + tail;
      var head: seq<Pokemon> := match outcomes[0] case Some(p) => [p] case None => [];
      SurvivorsCountStep(outcomes[0], tail, head, Survivors(tail));
    }
  }

  /** The count clause of `Survivors` for `[o] + tail`, given it for `tail`. */
  lemma SurvivorsCountStep(o: Option<Pokemon>, tail: seq<Option<Pokemon>>, head: seq<Pokemon>, rest: seq<Pokemon>)
    requires head == match o case Some(p) => [p] case None => []
    requires forall i :: 0 <= i < |rest| ==> Some(rest[i]) in tail
    requires forall i :: 0 <= i < |tail| && tail[i].Some? ==> multiset(rest)[tail[i].value] == multiset(tail)[tail[i]]
    ensures forall i :: 0 <= i < |[o] + tail| && ([o] + tail)[i].Some? ==>
              multiset(head + rest)[([o] + tail)[i].value] == multiset([o] + tail)[([o] + tail)[i]]
  {
    var s := [o] + tail;
    forall i | 0 <= i < |s| && s[i].Some?
      ensures multiset(head + rest)[s[i].value] == multiset(s)[s[i]]
    {
      var y := s[i].value;
      assert multiset(head + rest)[y] == multiset(head)[y] + multiset(rest)[y];
      assert multiset(s)[Some(y)] == multiset([o])[Some(y)] + multiset(tail)[Some(y)];
      assert multiset(head)[y] == multiset([o])[Some(y)];
      if Some(y) in tail {
        var j :| 0 <= j < |tail| && tail[j] == Some(y);
        assert multiset(rest)[tail[j].value] == multiset(tail)[tail[j]];
      } else {
        assert y !in rest;
      }
    }
  }

  /** Dropping failures keeps the arrival order: it distributes over concatenation. */
  lemma {:induction false} SurvivorsAppend(a: seq<Option<Pokemon>>, b: seq<Option<Pokemon>>)
    ensures Survivors(a + b) == Survivors(a) + Survivors(b)
    decreases |a|
  {
    if a == [] {
      assert a + b == b;
    } else {
      assert (a + b)[1..] == a[1..] + b;
      SurvivorsAppend(a[1..], b);
    }
  }

  /** `favourites.find(fav => fav.id === id)?.created_at`, or 0 when no favourite has the id. */
  function FavouriteTime(favourites: seq<Favourite>, id: int): (t: int)
    ensures (forall i :: 0 <= i < |favourites| ==> favourites[i].id != id) ==> t == 0
    ensures forall i :: (0 <= i < |favourites| && favourites[i].id == id &&
                         forall j :: 0 <= j < i ==> favourites[j].id != id) ==> t == favourites[i].createdAt
    decreases |favourites|
  {
    if favourites == [] then 0
    else if favourites[0].id == id then favourites[0].createdAt
    else
      var t := FavouriteTime(favourites[1..], id);
      assert forall i :: 1 <= i < |favourites| ==> favourites[i] == favourites[1..][i - 1];
      t
  }

  function Ids(favourites: seq<Favourite>): (ids: seq<int>)
    ensures |ids| == |favourites|
    ensures forall i :: 0 <= i < |ids| ==> ids[i] == favourites[i].id
  {
    seq(|favourites|, i requires 0 <= i < |favourites| => favourites[i].id)
  }

  datatype Details = Details(data: Option<seq<Pokemon>>, cache: ApiCache.Cache)

  /** `useFavouritesWithDetails`: disabled (no data) while the favourites are unknown or
      empty; otherwise the fetched entities, failures dropped, newest favourite first. */
  function FavouritesWithDetails(favourites: Option<seq<Favourite>>, c: ApiCache.Cache,
                                 fetch: string -> ApiCache.Response<Pokemon>,
                                 now: int, storedAt: int): (r: Details)
    ensures r.data.Some? <==> favourites.Some? && |favourites.value| > 0
    ensures r.data.Some? ==> |r.data.value| <= |favourites.value|
    ensures r.data.Some? ==> forall i, j :: 0 <= i < j < |r.data.value| ==>
              FavouriteTime(favourites.value, r.data.value[i].id) >= FavouriteTime(favourites.value, r.data.value[j].id)
    ensures r.data.Some? ==>
              multiset(r.data.value) == multiset(Survivors(FetchEach(c, Ids(favourites.value), fetch, now, storedAt).outcomes))
    ensures ApiCache.WellTyped(c) ==> ApiCache.WellTyped(r.cache)
    // the catalog cache: untouched while disabled, else left as the batch leaves it, holding
    // every entity fetched and changed only at the favourites' own keys
    ensures r.data.None? ==> r.cache == c
    ensures r.data.Some? ==> r.cache == FetchEach(c, Ids(favourites.value), fetch, now, storedAt).cache
    ensures r.data.Some? ==> forall i :: 0 <= i < |favourites.value| ==>
              StoresFetched(c, r.cache, favourites.value[i].id, fetch, now, storedAt)
    ensures r.data.Some? ==> OnlyKeysChange(c, r.cache, IdKeys(Ids(favourites.value)))
  {
    if favourites.None? || |favourites.value| == 0 then Details(None, c)
    else
      var favs := favourites.value;
      var batch := FetchEach(c, Ids(favs), fetch, now, storedAt);
      var sorted := SortDesc(Survivors(batch.outcomes), (p: Pokemon) => FavouriteTime(favs, p.id));
      Details(Some(sorted), batch.cache)
  }

  /** An id whose fetch fails never shows up, and every fetched entity does. */
  lemma FailedFetchDropped(favourites: seq<Favourite>, c: ApiCache.Cache,
                           fetch: string -> ApiCache.Response<Pokemon>, now: int, storedAt: int)
    requires |favourites| > 0
    ensures var batch := FetchEach(c, Ids(favourites), fetch, now, storedAt);
            var shown := FavouritesWithDetails(Some(favourites), c, fetch, now, storedAt).data.value;
            && (forall i :: 0 <= i < |shown| ==> Some(shown[i]) in batch.outcomes)
            && (forall i :: 0 <= i < |favourites| && batch.outcomes[i].Some? ==> batch.outcomes[i].value in shown)
  {
    var batch := FetchEach(c, Ids(favourites), fetch, now, storedAt);
    var shown := FavouritesWithDetails(Some(favourites), c, fetch, now, storedAt).data.value;
    ShownAreSurvivors(batch.outcomes, shown);
  }

  /** A permutation of the survivors holds exactly the entities that arrived. */
  lemma ShownAreSurvivors(outcomes: seq<Option<Pokemon>>, shown: seq<Pokemon>)
    requires multiset(shown) == multiset(Survivors(outcomes))
    ensures forall i :: 0 <= i < |shown| ==> Some(shown[i]) in outcomes
    ensures forall i :: 0 <= i < |outcomes| && outcomes[i].Some? ==> outcomes[i].value in shown
  {
    SameElements(shown, Survivors(outcomes));
  }

  // ---------------------------------------------------------------- search, recent, count

  /** The search rule: the lower-cased name contains the lower-cased term, or the decimal
      id contains the term as typed. */
  predicate Matches(p: Pokemon, term: string) {
    Contains(Lower(p.name), Lower(term)) || Contains(IntToString(p.id), term)
  }

  function MatchesTerm(term: string): Pokemon -> bool {
    (p: Pokemon) => Matches(p, term)
  }

  /** `useSearchFavourites`: the matching entities in their order; no data without details. */
  function SearchFavourites(details: Option<seq<Pokemon>>, term: string): (r: Option<seq<Pokemon>>)
    ensures r.Some? <==> details.Some?
    ensures r.Some? ==> forall i :: 0 <= i < |r.value| ==> Matches(r.value[i], term) && r.value[i] in details.value
    ensures r.Some? ==> forall i :: 0 <= i < |details.value| && Matches(details.value[i], term) ==> details.value[i] in r.value
  {
    match details
    case None => None
    case Some(s) => Some(Filter(s, MatchesTerm(term)))
  }

  /** Searching keeps relative order: the result on a concatenation is the concatenation
      of the results. */
  lemma SearchKeepsOrder(a: seq<Pokemon>, b: seq<Pokemon>, term: string)
    ensures SearchFavourites(Some(a + b), term) ==
            Some(SearchFavourites(Some(a), term).value + SearchFavourites(Some(b), term).value)
  {
    FilterAppend(a, b, MatchesTerm(term));
  }

  /** The empty term keeps every entity. */
  lemma EmptyTermKeepsAll(s: seq<Pokemon>)
    ensures SearchFavourites(Some(s), "") == Some(s)
  {
    forall i | 0 <= i < |s| ensures Matches(s[i], "") {
      ContainsEmpty(Lower(s[i].name));
    }
    FilterKeepsAll(s, MatchesTerm(""));
  }

  /** Where `slice(0, limit)` ends on a sequence of length `len`: a negative limit counts
      back from the end. */
  function SliceEnd(len: nat, limit: int): (e: nat)
    ensures e <= len
    ensures limit >= 0 ==> e == if limit < len then limit else len
    ensures limit < 0 ==> e == if len + limit > 0 then len + limit else 0
  {
    if limit >= 0 then (if limit < len then limit else len)
    else if len + limit > 0 then len + limit else 0
  }

  /** `useRecentFavourites(limit)`: the newest `limit` favourites, newest first. */
  function RecentFavourites(favourites: Option<seq<Favourite>>, limit: int): (r: Option<seq<Favourite>>)
    ensures r.Some? <==> favourites.Some?
    ensures r.Some? ==> |r.value| == SliceEnd(|favourites.value|, limit)
    ensures r.Some? ==> SortedDesc(r.value, CreatedAt)
    ensures r.Some? ==> multiset(r.value) <= multiset(favourites.value)
    ensures r.Some? ==> forall f, g :: f in multiset(favourites.value) - multiset(r.value) && g in r.value ==>
              g.createdAt >= f.createdAt
  {
    match favourites
    case None => None
    case Some(favs) =>
      var sorted := SortDesc(favs, CreatedAt);
      var n := SliceEnd(|favs|, limit);
      assert sorted == sorted[..n] + sorted[n..];
      assert multiset(sorted) == multiset(sorted[..n]) + multiset(sorted[n..]);
      assert forall f :: f in multiset(favs) - multiset(sorted[..n]) ==> f in sorted[n..];
      Some(sorted[..n])
  }

  /** The default limit of `useRecentFavourites`. */
  function RecentFavouritesDefault(favourites: Option<seq<Favourite>>): (r: Option<seq<Favourite>>)
    ensures r.Some? <==> favourites.Some?
    ensures favourites.Some? ==> r.Some? && |r.value| == if |favourites.value| < 5 then |favourites.value| else 5
    ensures r.Some? ==> SortedDesc(r.value, CreatedAt)
    ensures r.Some? ==> multiset(r.value) <= multiset(favourites.value)
    ensures r.Some? ==> forall f, g :: f in multiset(favourites.value) - multiset(r.value) && g in r.value ==>
              g.createdAt >= f.createdAt
  {
    RecentFavourites(favourites, 5)
  }

  /** What `useFavouriteCount` shows. */
  datatype CountView = CountView(count: nat, isLoading: bool)

  /** `useFavouriteCount`: the number of favourites, 0 while there is no data, and loading
      exactly while there is no data. */
  function FavouriteCount(favourites: Option<seq<Favourite>>): (r: CountView)
    ensures r.isLoading <==> favourites.None?
    ensures favourites.Some? ==> r.count == |favourites.value|
    ensures r.count == 0 <==> favourites.None? || favourites.value == []
  {
    if favourites.Some? then CountView(|favourites.value|, false) else CountView(0, true)
  }

  /** The count of a full listing is the number of stored favourites, and an optimistic add
      shows one more than before. */
  lemma CountFollowsStore(rows: seq<Favourite>, t: Table, v: Views, toggle: Toggle, now: int)
    requires ListsExactly(rows, t)
    requires !toggle.isCurrentlyFavourite
    ensures FavouriteCount(Some(rows)).count == |t|
    ensures FavouriteCount(ListOf(OnMutate(v, toggle, now).views)).count == FavouriteCount(ListOf(v)).count + 1
  {
  }

  // ---------------------------------------------------------------- bulk status

  /** Position `i` holds the last occurrence of its id. */
  ghost predicate IsLast(ids: seq<int>, i: int) {
    0 <= i < |ids| && forall j :: i < j < |ids| ==> ids[j] != ids[i]
  }

  /** The `reduce` of `useBulkFavouriteStatus`: id to status, a later duplicate id
      overwriting an earlier one. */
  function StatusMap(ids: seq<int>, statuses: seq<bool>): (m: map<int, bool>)
    requires |ids| == |statuses|
    ensures forall i :: 0 <= i < |ids| ==> ids[i] in m
    ensures forall id :: id in m ==> id in ids
    ensures forall i :: IsLast(ids, i) ==> m[ids[i]] == statuses[i]
    decreases |ids|
  {
    if ids == [] then map[]
    else
      var n := |ids| - 1;
      var m := StatusMap(ids[..n], statuses[..n]);
      var m' := m[ids[n] := statuses[n]];
      ReduceStep(ids, statuses, ids[..n], statuses[..n], m, m');
      m'
  }

  /** One step of the `reduce`: what holds of the prefix's map holds, after writing the
      last id, of the whole. */
  lemma ReduceStep(ids: seq<int>, statuses: seq<bool>, pre: seq<int>, preStatuses: seq<bool>,
                   m: map<int, bool>, m': map<int, bool>)
    requires |ids| == |statuses| && |ids| > 0
    requires pre == ids[..|ids| - 1] && preStatuses == statuses[..|ids| - 1]
    requires forall i :: 0 <= i < |pre| ==> pre[i] in m
    requires forall id :: id in m ==> id in pre
    requires forall i :: IsLast(pre, i) ==> m[pre[i]] == preStatuses[i]
    requires m' == m[ids[|ids| - 1] := statuses[|ids| - 1]]
    ensures forall i :: 0 <= i < |ids| ==> ids[i] in m'
    ensures forall id :: id in m' ==> id in ids
    ensures forall i :: IsLast(ids, i) ==> m'[ids[i]] == statuses[i]
  {
    var n := |ids| - 1;
    forall i | IsLast(ids, i) ensures m'[ids[i]] == statuses[i] {
      if i < n {
        assert pre[i] == ids[i] && preStatuses[i] == statuses[i];
        assert IsLast(pre, i);
      }
    }
    forall i | 0 <= i < n ensures ids[i] in m' {
      assert pre[i] == ids[i];
    }
    forall id | id in m' ensures id in ids {
      if id != ids[n] {
        var k :| 0 <= k < n && pre[k] == id;
        assert ids[k] == id;
      }
    }
  }

  /** `useBulkFavouriteStatus`: disabled, so without data, for an empty id list; otherwise
      `isFavourite` for each id (`fault(i)` is the engine's answer to the i-th query),
      gathered into a map. Only a missing handle makes it throw. */
  function BulkFavouriteStatus(db: Db, ids: seq<int>, fault: int -> Option<string>)
    : (r: Option<Result<map<int, bool>, DbError>>)
    ensures r.None? <==> |ids| == 0
    ensures r.Some? ==> (r.value.Err? <==> !db.open)
    ensures r.Some? && r.value.Err? ==> r.value.error == NotInitialized
    ensures r.Some? && r.value.Ok? ==> forall i :: 0 <= i < |ids| ==> ids[i] in r.value.value
    ensures r.Some? && r.value.Ok? ==> forall id :: id in r.value.value ==> id in ids
    ensures r.Some? && r.value.Ok? ==> forall i :: IsLast(ids, i) ==>
              r.value.value[ids[i]] == (EngineFault(db, fault(i)).None? && ids[i] in db.table.value)
  {
    if |ids| == 0 then None
    else if !db.open then Some(Err(NotInitialized))
    else
      var statuses := seq(|ids|, i requires 0 <= i < |ids| => IsFavourite(db, ids[i], fault(i)).GetOr(false));
      Some(Ok(StatusMap(ids, statuses)))
  }

  /** With a healthy engine every asked id maps to whether it is stored. */
  lemma BulkMatchesStore(db: Db, ids: seq<int>, id: int)
    requires db.open && db.table.Some?
    requires id in ids
    ensures BulkFavouriteStatus(db, ids, _ => None) == Some(Ok(BulkFavouriteStatus(db, ids, _ => None).value.value))
    ensures BulkFavouriteStatus(db, ids, _ => None).value.value[id] == (id in db.table.value)
  {
    var i := LastIndex(ids, id);
  }

  /** The position of the last occurrence of `id`. */
  function LastIndex(ids: seq<int>, id: int): (i: nat)
    requires id in ids
    ensures i < |ids| && ids[i] == id
    ensures forall j :: i < j < |ids| ==> ids[j] != id
    decreases |ids|
  {
    var n := |ids| - 1;
    if ids[n] == id then n
    else
      assert ids == ids[..n] + [ids[n]];
      LastIndex(ids[..n], id)
  }

  // ---------------------------------------------------------------- clear all

  /** Table `t` without the rows whose id is in `ids`. */
  function Removed(t: Table, ids: seq<int>): (r: Table)
    ensures r.Keys == t.Keys - (set k | k in ids)
    ensures forall k :: k in r ==> r[k] == t[k]
  {
    map k | k in t && k !in ids :: t[k]
  }

  /** Removing one more id takes one more key out. */
  lemma RemovedStep(t: Table, ids: seq<int>, n: nat)
    requires n < |ids|
    ensures Removed(t, ids[..n + 1]) == Removed(t, ids[..n]) - {ids[n]}
  {
    assert ids[..n + 1] == ids[..n] + [ids[n]];
  }

  /** The `for ... of` loop of `useClearFavourites`: `removeFavourite` on each id in turn,
      the first throw ending the loop. `done` is how many removals succeeded; `fault(i)` is
      the engine's answer to the i-th `DELETE`. */
  method RemoveEach(db: Db, ids: seq<int>, fault: int -> Option<string>) returns (r: Step<()>, done: nat)
    ensures done <= |ids|
    ensures r.result.Ok? <==> done == |ids|
    ensures r.result.Err? ==> r.result == RemoveFavourite(r.db, ids[done], fault(done)).result
    ensures r.db.open == db.open
    ensures done == 0 ==> r.db == db
    ensures done > 0 ==> db.table.Some? && r.db.table == Some(Removed(db.table.value, ids[..done]))
    // every removal before `done` succeeded, and the one at `done` threw the engine's error
    ensures forall j :: 0 <= j < done ==> fault(j).None?
    ensures r.result.Err? && db.open && db.table.Some? ==>
              fault(done).Some? && r.result == Err(StorageError(fault(done).value))
  {
    r := Step(Ok(()), db);
    done := 0;
    while done < |ids|
      invariant done <= |ids|
      invariant r.result.Ok?
      invariant forall j :: 0 <= j < done ==> fault(j).None?
      invariant r.db.open == db.open
      invariant done == 0 ==> r.db == db
      invariant done > 0 ==> db.table.Some? && r.db.table == Some(Removed(db.table.value, ids[..done]))
    {
      var s := RemoveFavourite(r.db, ids[done], fault(done));
      if s.result.Err? {
        return Step(s.result, r.db), done;
      }
      if done > 0 {
        RemovedStep(db.table.value, ids, done);
      } else {
        assert ids[..1] == [ids[0]];
        assert Removed(db.table.value, ids[..1]) == db.table.value - {ids[0]};
      }
      r, done := s, done + 1;
    }
  }

  /** Taking out a stored id takes out one row. */
  lemma RemoveOneRow(m: Table, k: int)
    requires k in m
    ensures |m - {k}| == |m| - 1
  {
    assert (m - {k}).Keys == m.Keys - {k};
    assert |(m - {k}).Keys| == |m.Keys| - 1;
  }

  /** Removing `n` distinct stored ids takes exactly `n` rows out. */
  lemma {:induction false} RemovedSize(t: Table, ids: seq<int>, n: nat)
    requires n <= |ids|
    requires forall i :: 0 <= i < |ids| ==> ids[i] in t
    requires forall i, j :: 0 <= i < j < |ids| ==> ids[i] != ids[j]
    ensures |Removed(t, ids[..n])| == |t| - n
    decreases n
  {
    if n == 0 {
      assert Removed(t, ids[..0]) == t;
    } else {
      RemovedSize(t, ids, n - 1);
      RemovedStep(t, ids, n - 1);
      var m := Removed(t, ids[..n - 1]);
      assert ids[n - 1] !in ids[..n - 1];
      RemoveOneRow(m, ids[n - 1]);
    }
  }

  /** A store listed exactly loses every row when each listed id is removed. */
  lemma RemovingListedEmpties(rows: seq<Favourite>, t: Table)
    requires ListsExactly(rows, t)
    ensures Removed(t, Ids(rows)) == map[]
  {
    var ids := Ids(rows);
    forall k | k in t ensures k in ids {
      var i :| 0 <= i < |rows| && rows[i].id == k;
      assert ids[i] == k;
    }
  }

  /** `onSuccess` of `useClearFavourites`: invalidate ["pokemon", "favourites"] (the list
      and, by prefix, every details entry) and every favourite-status entry. */
  function OnCleared(v: Views): (r: Views)
    // every status entry keeps its data and becomes stale
    ensures r.status.Keys == v.status.Keys
    ensures forall id :: StatusOf(r, id) == StatusOf(v, id)
    ensures forall id :: id in r.status ==> r.status[id].stale
    // the list keeps its data and, when present, becomes stale
    ensures ListOf(r) == ListOf(v)
    ensures r.list.Some? <==> v.list.Some?
    ensures r.list.Some? ==> r.list.value.stale
    // so does every details entry; the bulk entries are untouched
    ensures r.details.Keys == v.details.Keys
    ensures forall k :: k in r.details ==> r.details[k].data == v.details[k].data && r.details[k].stale
    ensures r.bulk == v.bulk
  {
    Views(
      StaleAll(v.status),
      if v.list.Some? then Some(MarkStale(v.list.value)) else None,
      StaleAll(v.details),
      v.bulk)
  }

  /** The index of the first of `n` statements the engine fails, or `n` when none does. */
  function FirstFault(fault: int -> Option<string>, n: nat): (k: nat)
    ensures k <= n
    ensures forall j :: 0 <= j < k ==> fault(j).None?
    ensures k < n ==> fault(k).Some?
  {
    if n == 0 then 0
    else
      var k := FirstFault(fault, n - 1);
      if k < n - 1 || fault(n - 1).Some? then k else n
  }

  /** Any index with nothing failing before it and a failure at it (or none at all) is the first. */
  lemma FirstFaultUnique(fault: int -> Option<string>, n: nat, k: nat)
    requires k <= n
    requires forall j :: 0 <= j < k ==> fault(j).None?
    requires k < n ==> fault(k).Some?
    ensures k == FirstFault(fault, n)
  {
  }

  datatype ClearOutcome = ClearOutcome(result: Result<(), DbError>, views: Views, db: Db)

  /** `useClearFavourites`: read every favourite, remove them one by one, then `onSuccess`.
      There is no `onError`, so a failure leaves the views as they were, even after some
      rows are gone. A failed read is swallowed by the store and clears nothing. */
  method ClearFavourites(v: Views, db: Db, readFault: Option<string>, fault: int -> Option<string>)
    returns (r: ClearOutcome)
    ensures !db.open ==> r == ClearOutcome(Err(NotInitialized), v, db)
    ensures db.open && EngineFault(db, readFault).Some? ==> r == ClearOutcome(Ok(()), OnCleared(v), db)
    ensures r.result.Ok? ==> r.views == OnCleared(v)
    ensures r.result.Err? ==> r.views == v
    ensures r.result.Err? && db.open ==> r.result.error.StorageError?
    ensures r.db.open == db.open
    ensures db.open && EngineFault(db, readFault).None? && r.result.Ok? ==> r.db == Db(true, Some(map[]))
    ensures r.db.table.Some? ==> db.table.Some? && forall k :: k in r.db.table.value ==>
              k in db.table.value && r.db.table.value[k] == db.table.value[k]
    // after a good read: it succeeds iff no removal faults; the first failing removal is
    // rethrown, with the rows before it gone
    ensures db.open && EngineFault(db, readFault).None? ==>
              (r.result.Ok? <==> FirstFault(fault, |db.table.value|) == |db.table.value|)
    ensures db.open && EngineFault(db, readFault).None? && FirstFault(fault, |db.table.value|) < |db.table.value| ==>
              && r.result == Err(StorageError(fault(FirstFault(fault, |db.table.value|)).value))
              && r.db.table.Some?
              && |r.db.table.value| == |db.table.value| - FirstFault(fault, |db.table.value|)
  {
    var read := GetAllFavourites(db, readFault);
    if read.Err? {
      return ClearOutcome(Err(read.error), v, db);
    }
    var removal, done := RemoveEach(db, Ids(read.value), fault);
    if EngineFault(db, readFault).None? {
      FirstFaultUnique(fault, |db.table.value|, done);
    }
    if removal.result.Err? {
      if EngineFault(db, readFault).None? {
        RemovedSize(db.table.value, Ids(read.value), done);
      }
      return ClearOutcome(removal.result, v, removal.db);
    }
    if EngineFault(db, readFault).None? {
      RemovingListedEmpties(read.value, db.table.value);
      assert Ids(read.value)[..done] == Ids(read.value);
    }
    return ClearOutcome(Ok(()), OnCleared(v), removal.db);
  }
}

=== FILE: sequences.dfy ===
/** Sequence operations the favourites code uses more than once: `Array.prototype.filter`
    and ordering by a numeric key, largest (newest) first. Both the favourites query
    (`ORDER BY created_at DESC`) and the comparator sorts in the hooks order this way;
    JavaScript's `Array.prototype.sort` is stable, and so is `SortDesc`. */
module Sequences {

  /** `s.filter(keep)`: the elements `keep` accepts, in their original order. */
  function Filter<T>(s: seq<T>, keep: T -> bool): (r: seq<T>)
    ensures |r| <= |s|
    ensures forall i :: 0 <= i < |r| ==> keep(r[i]) && r[i] in s
    ensures forall i :: 0 <= i < |s| && keep(s[i]) ==> s[i] in r
    decreases |s|
  {
    if s == [] then []
    else
      var rest := Filter(s[1..], keep);
      assert forall i :: 1 <= i < |s| ==> s[i] == s[1..][i - 1];
      (if keep(s[0]) then [s[0]] else []) + rest
  }

  /** `filter` keeps every copy of an accepted element and none of a rejected one: the
      result holds each element of `s` exactly as often as `s` does, or not at all. */
  lemma {:induction false} FilterCount<T>(s: seq<T>, keep: T -> bool)
    ensures forall i :: 0 <= i < |s| ==>
              multiset(Filter(s, keep))[s[i]] == if keep(s[i]) then multiset(s)[s[i]] else 0
    decreases |s|
  {
    if s != [] {
      var tail := s[1..];
      FilterCount(tail, keep);
      assert s == [s[0]] + tail;
      FilterCountStep(s[0], tail, keep, Filter(tail, keep), if keep(s[0]) then [s[0]] else []);
    }
  }

  /** The count clause of `Filter` for `[x] + tail`, given it for `tail`. */
  lemma FilterCountStep<T>(x: T, tail: seq<T>, keep: T -> bool, rest: seq<T>, head: seq<T>)
    requires head == if keep(x) then [x] else []
    requires forall i :: 0 <= i < |rest| ==> rest[i] in tail
    requires forall i :: 0 <= i < |tail| ==>
               multiset(rest)[tail[i]] == if keep(tail[i]) then multiset(tail)[tail[i]] else 0
    ensures forall i :: 0 <= i < |[x] + tail| ==>
              multiset(head + rest)[([x] + tail)[i]] ==
              if keep(([x] + tail)[i]) then multiset([x] + tail)[([x] + tail)[i]] else 0
  {
    var s := [x] + tail;
    forall i | 0 <= i < |s|
      ensures multiset(head + rest)[s[i]] == if keep(s[i]) then multiset(s)[s[i]] else 0
    {
      var y := s[i];
      assert multiset(head + rest)[y] == multiset(head)[y] + multiset(rest)[y];
      assert multiset(s)[y] == multiset([x])[y] + multiset(tail)[y];
      if y in tail {
        var j :| 0 <= j < |tail| && tail[j] == y;
        assert multiset(rest)[tail[j]] == if keep(tail[j]) then multiset(tail)[tail[j]] else 0;
      } else {
        assert y !in rest;
        assert multiset(tail)[y] == 0;
      }
    }
  }

  /** Filtering distributes over concatenation: relative order is kept. */
  lemma {:induction false} FilterAppend<T>(a: seq<T>, b: seq<T>, keep: T -> bool)
    ensures Filter(a + b, keep) == Filter(a, keep) + Filter(b, keep)
    decreases |a|
  {
    if a != [] {
      assert (a + b)[1..] == a[1..] + b;
      FilterAppend(a[1..], b, keep);
    } else {
      assert a + b == b;
    }
  }

  /** A filter that accepts everything returns its input unchanged. */
  lemma {:induction false} FilterKeepsAll<T>(s: seq<T>, keep: T -> bool)
    requires forall i :: 0 <= i < |s| ==> keep(s[i])
    ensures Filter(s, keep) == s
    decreases |s|
  {
    if s != [] {
      FilterKeepsAll(s[1..], keep);
      assert s == [s[0]] + s[1..];
    }
  }

  /** `s` is ordered by `key`, non-increasing. */
  ghost predicate SortedDesc<T>(s: seq<T>, key: T -> int) {
    forall i, j :: 0 <= i < j < |s| ==> key(s[i]) >= key(s[j])
  }

  /** Places `x` in front of the first element whose key is smaller than its own. */
  function Insert<T>(x: T, s: seq<T>, key: T -> int): (r: seq<T>)
    requires SortedDesc(s, key)
    ensures SortedDesc(r, key)
    ensures |r| == |s| + 1
    ensures multiset(r) == multiset(s) + multiset{x}
    decreases |s|
  {
    if s == [] || key(x) >= key(s[0]) then
      [x] + s
    else
      var rest := Insert(x, s[1..], key);
      assert s == [s[0]] + s[1..];
      assert forall i :: 0 <= i < |rest| ==> key(rest[i]) <= key(s[0]) by {
        forall i | 0 <= i < |rest| ensures key(rest[i]) <= key(s[0]) {
          assert rest[i] in multiset(rest);
          assert rest[i] == x || rest[i] in multiset(s[1..]);
        }
      }
      [s[0]] + rest
  }

  /** Membership follows the multiset: a permutation holds the same elements. */
  lemma SameElements<T>(r: seq<T>, s: seq<T>)
    requires multiset(r) == multiset(s)
    ensures forall i :: 0 <= i < |s| ==> s[i] in r
    ensures forall i :: 0 <= i < |r| ==> r[i] in s
  {
    forall i | 0 <= i < |s| ensures s[i] in r {
      assert s[i] in multiset(s);
    }
    forall i | 0 <= i < |r| ensures r[i] in s {
      assert r[i] in multiset(r);
    }
  }

  /** Insertion sort, newest first: a permutation of `s` ordered by `key`. */
  function SortDesc<T>(s: seq<T>, key: T -> int): (r: seq<T>)
    ensures SortedDesc(r, key)
    ensures |r| == |s|
    ensures multiset(r) == multiset(s)
    decreases |s|
  {
    if s == [] then []
    else
      assert s == [s[0]] + s[1..];
      Insert(s[0], SortDesc(s[1..], key), key)
  }
}

=== FILE: text.dfy ===
/** The string operations the source relies on: decimal rendering of integers (template
    literals and `toString()`), ASCII lower-casing (`toLowerCase()`) and substring search
    (`includes`). */
module Text {

  predicate IsDigit(c: char) {
    '0' <= c <= '9'
  }

  function DigitChar(d: int): (c: char)
    requires 0 <= d < 10
    ensures IsDigit(c)
  {
    "0123456789"[d]
  }

  /** Decimal rendering of a natural number, most significant digit first, no leading zeros. */
  function NatToString(n: nat): (s: string)
    ensures |s| >= 1
    ensures forall i :: 0 <= i < |s| ==> IsDigit(s[i])
    ensures n < 10 <==> |s| == 1
    decreases n
  {
    if n < 10 then [DigitChar(n)] else NatToString(n / 10) + [DigitChar(n % 10)]
  }

  /** Decimal rendering of an integer as JavaScript prints an integral number:
      a leading '-' exactly for negatives, digits everywhere else. */
  function IntToString(i: int): (s: string)
    ensures |s| >= 1
    ensures s[0] == '-' <==> i < 0
    ensures forall k :: 1 <= k < |s| ==> IsDigit(s[k])
    ensures i >= 0 ==> IsDigit(s[0])
  {
    if i < 0 then "-" + NatToString(-i) else NatToString(i)
  }

  lemma DigitCharInjective(a: int, b: int)
    requires 0 <= a < 10 && 0 <= b < 10
    ensures DigitChar(a) == DigitChar(b) ==> a == b
  {
  }

  /** Distinct numbers print differently. */
  lemma {:induction false} NatToStringInjective(a: nat, b: nat)
    ensures NatToString(a) == NatToString(b) ==> a == b
    decreases a
  {
    var sa, sb := NatToString(a), NatToString(b);
    if sa == sb {
      if a < 10 || b < 10 {
        assert a < 10 && b < 10;
        DigitCharInjective(a, b);
      } else {
        assert sa[..|sa| - 1] == NatToString(a / 10);
        assert sb[..|sb| - 1] == NatToString(b / 10);
        NatToStringInjective(a / 10, b / 10);
        DigitCharInjective(a % 10, b % 10);
        assert sa[|sa| - 1] == DigitChar(a % 10);
        assert sb[|sb| - 1] == DigitChar(b % 10);
      }
    }
  }

  /** Distinct integers print differently (the sign is part of the text). */
  lemma IntToStringInjective(a: int, b: int)
    ensures IntToString(a) == IntToString(b) ==> a == b
  {
    if IntToString(a) == IntToString(b) {
      if a < 0 {
        assert IntToString(a)[1..] == NatToString(-a);
        assert IntToString(b)[1..] == NatToString(-b);
        NatToStringInjective(-a, -b);
      } else {
        NatToStringInjective(a, b);
      }
    }
  }

  /** `X + "-" + Y` splits uniquely when X and X' are printed integers:
      a printed integer holds '-' at most at its first position. */
  lemma SplitAtDash(x: int, y: int, x': int, y': int)
    ensures IntToString(x) + "-" + IntToString(y) == IntToString(x') + "-" + IntToString(y')
            ==> x == x' && y == y'
  {
    var a, b := IntToString(x), IntToString(y);
    var a', b' := IntToString(x'), IntToString(y');
    var s, s' := a + "-" + b, a' + "-" + b';
    if s == s' {
      assert s[|a|] == '-' == s'[|a'|];
      assert s[|a'|] == s'[|a'|] && s'[|a|] == s[|a|];
      assert |a| == |a'|;
      assert a == s[..|a|] == a';
      assert b == s[|a| + 1..] == b';
      IntToStringInjective(x, x');
      IntToStringInjective(y, y');
    }
  }

  function LowerChar(c: char): (l: char)
    ensures 'A' <= c <= 'Z' ==> 'a' <= l <= 'z'
    ensures !('A' <= c <= 'Z') ==> l == c
  {
    if 'A' <= c <= 'Z' then (c as int - 'A' as int + 'a' as int) as char else c
  }

  /** ASCII lower-casing, character by character. */
  function Lower(s: string): (r: string)
    ensures |r| == |s|
    ensures forall i :: 0 <= i < |s| ==> r[i] == LowerChar(s[i])
  {
    seq(|s|, i requires 0 <= i < |s| => LowerChar(s[i]))
  }

  /** `needle` occurs in `hay` starting at position `i`. */
  ghost predicate OccursAt(hay: string, needle: string, i: int) {
    0 <= i && i + |needle| <= |hay| && hay[i..i + |needle|] == needle
  }

  /** JavaScript's `hay.includes(needle)`: some window of `hay` equals `needle`. */
  function Contains(hay: string, needle: string): (b: bool)
    ensures b <==> exists i :: OccursAt(hay, needle, i)
    decreases |hay|
  {
    if |needle| > |hay| then
      assert forall i :: !OccursAt(hay, needle, i);
      false
    else if hay[..|needle|] == needle then
      assert OccursAt(hay, needle, 0);
      true
    else
      var rest := Contains(hay[1..], needle);
      assert forall i :: OccursAt(hay[1..], needle, i) ==> OccursAt(hay, needle, i + 1) by {
        forall i | OccursAt(hay[1..], needle, i) ensures OccursAt(hay, needle, i + 1) {
          assert hay[1..][i..i + |needle|] == hay[i + 1..i + 1 + |needle|];
        }
      }
      assert forall i :: OccursAt(hay, needle, i) ==> i == 0 || OccursAt(hay[1..], needle, i - 1) by {
        forall i | OccursAt(hay, needle, i) && i != 0 ensures OccursAt(hay[1..], needle, i - 1) {
          assert hay[1..][i - 1..i - 1 + |needle|] == hay[i..i + |needle|];
        }
      }
      rest
  }

  /** Every string contains the empty string, so an empty search term matches everything. */
  lemma ContainsEmpty(hay: string)
    ensures Contains(hay, "")
  {
    assert OccursAt(hay, "", 0);
  }
}

=== FILE: wrappers.dfy ===
/** Failure-carrying values shared by the whole model: a JavaScript value that may be
    `undefined`/`null` becomes an `Option`, an operation that may throw returns a `Result`. */
module Wrappers {

  datatype Option<+T> = None | Some(value: T) {

    /** The value, or `default` when absent (JavaScript's `x ?? default`). */
    function GetOr(default: T): T {
      match this
      case Some(v) => v
      case None => default
    }
  }

  datatype Result<+R, +E> = Ok(value: R) | Err(error: E) {

    /** The value, or `default` on failure (a swallowed error). */
    function GetOr(default: R): R {
      match this
      case Ok(v) => v
      case Err(_) => default
    }

    /** Forgets the error, as a `.catch(() => null)` does. */
    function ToOption(): Option<R> {
      match this
      case Ok(v) => Some(v)
      case Err(_) => None
    }
  }
}
